=== FILE: README.md ===
# iata-location, modelled in Dafny

`iata-location` looks airports up by IATA code. The package has two halves:

- **The generator** (`scripts/generate.ts`):
  - filters the rows of an airport table down to those with a non-blank `iata_code`;
  - upper-cases the codes;
  - inserts every airport into a prefix tree with one node per character;
  - writes one `index.ts` unit per tree node under `src/data/`, one directory level per character.
- **The lookup** (`lookupAirport` in `src/index.ts`):
  - upper-cases the requested code;
  - builds the module path `./data/J/F/K`;
  - loads that module once per path through a module-level cache;
  - returns the export named by the upper-cased code, or `undefined`.

The generated units work as follows:

- A unit holds the node's airport as `export const <CODE>`.
- A unit has `export * from './<key>'` for every child, in sorted key order.
- A unit holding an airport also imports the `Airport` type from `'../'.repeat(depth + 1) + 'types'`; a unit without one imports nothing.
- So loading the unit of a node exposes every airport whose code starts with the node's path.

The project models both halves and the module loading that joins them:

- `basics.dfy`: `Option`.
- `text.dfy`: `toUpperCase` (ASCII letters) and `trim`, with the exact set of whitespace and line-terminator code points JavaScript removes, and `Unpadded` strings, which `trim` leaves alone.
- `records.dfy`: parsed rows, the filter `record.iata_code && record.iata_code.trim() !== ""`, and the row-to-`Airport` conversion, which stores the trimmed, upper-cased code (see "## Findings").
- `trie.dfy`: the prefix tree, with these pieces:
  - `Tree` (`interface AirportTree`);
  - path lookup `Find`/`Has`/`Held`;
  - one pass of the insertion loop (`Insert`);
  - the whole loop (`Build`);
  - `LastWithCode`, the reference definition of what the loop leaves at each node.
- `emitter.dfy`: `generateNodeFiles`. The files it writes are a sequence of `(address, unit)` writes. A unit is a sequence of structured lines:
  - the banner;
  - the type import;
  - `export const`;
  - `export *`.

  The emitter file also defines sorted keys, the import path, directories, and the store left after all writes.
- `loader.dfy`: what loading a unit exposes. That is its own `export const` bindings plus, transitively, the namespaces of the units its `export *` lines name. Loading fails if a unit is missing.
- `generation.dfy`: the generator end to end (`Generate`). It proves that loading the unit of any node exposes exactly the airports whose codes start with that node's address.
- `lookup.dfy`: the module path, the cache, and `lookupAirport`. The cache is modelled as a `Session` value threaded through calls. It holds the cached outcomes and a log of the loads made.
- `endtoend.dfy`: generation and lookup together, with the trimming conversion (see "## Findings"). It proves these results:
  - a lookup answers the last kept airport with the upper-cased code;
  - the round trip;
  - unknown codes give `undefined`;
  - a worked example with the codes `JFK` and `LGA`;
  - with the trimming conversion, a row coded ` JFK` is found under `JFK`.
- `aswritten.dfy`: the conversion exactly as line 27 of `scripts/generate.ts` writes it, without trimming. It proves these results:
  - on data where no kept code has surrounding whitespace, the script as written produces the same units as the trimming conversion, so the lookup and round-trip results hold for it too;
  - a padded code defeats the lookup (see "## Findings").

## Model

| member | source | states |
|---|---|---|
| `Text.UpperChar` | scripts/generate.ts:27 | no result is a lower-case ASCII letter; `a`..`z` map to `A`..`Z` at the same alphabet position; every other character is unchanged (`ToUpper` applies this to every character, keeping the length) |
| `Text.ToUpperIdempotent` | src/index.ts:20 | upper-casing twice is upper-casing once, so the lookup's upper-casing of a code the generator already upper-cased changes nothing |
| `Text.ToUpperFixesUpperCase` | scripts/generate.ts:27 | a string with no lower-case letter is left unchanged by upper-casing |
| `Text.Trim` | scripts/generate.ts:17 | the trimmed string is no longer than the input, and a non-empty result neither starts nor ends with whitespace or a line terminator |
| `Text.TrimIsMiddleSlice` | scripts/generate.ts:17 | `Trim` keeps one contiguous slice of the input, starting where `TrimStart` starts; every character dropped before or after that slice is whitespace or a line terminator |
| `Text.TrimFixesUnpadded` | scripts/generate.ts:17 | trimming leaves a string unchanged exactly when it is empty or neither starts nor ends with whitespace or a line terminator (both directions) |
| `Text.TrimEmptyIffBlank` | scripts/generate.ts:17 | `trim()` gives the empty string exactly when every character is whitespace or a line terminator (both directions) |
| `Records.HasCodeIffNotBlank` | scripts/generate.ts:17 | a row with a code column passes the filter (`HasCode`) exactly when the code has at least one non-whitespace character |
| `Records.FilterValid` | scripts/generate.ts:17 | the kept rows are exactly the input rows that have a non-blank code, and there are never more of them than input rows |
| `Records.FilterValidAppend` | scripts/generate.ts:17 | filtering a concatenation is concatenating the filtered parts, so kept rows stay in input order |
| `Records.ToAirport` | scripts/generate.ts:20-28 | the airport's code is the row's code trimmed and then upper-cased character by character, so it is non-empty, upper-case and neither starts nor ends with whitespace; latitude, longitude, country, region and municipality are copied unchanged (line 27 does not trim; see "## Findings") |
| `Records.Airports` | scripts/generate.ts:20-29 | there is one airport per kept row, and every code is non-empty and upper-case |
| `Records.AirportOfKept` | scripts/generate.ts:20-29 | the `i`-th airport is the conversion of the `i`-th kept row |
| `Records.KeptRowBecomesAirport` | scripts/generate.ts:17-29 | every input row with a non-blank code yields its airport |
| `Records.AirportComesFromKeptRow` | scripts/generate.ts:17-29 | every airport is the conversion of some input row with a non-blank code |
| `Trie.FindAppend` | scripts/generate.ts:41-47 | walking the tree along `p` and then `q` reaches the node that walking along `p + q` reaches |
| `Trie.InsertSpec` | scripts/generate.ts:41-49 | `Insert` at `code` leaves every path off the prefixes of `code` unchanged, creates a node at every prefix of `code`, changes no airport held at any other path, and holds the inserted airport at `code` |
| `Trie.InsertKeepsCodesMatchPaths` | scripts/generate.ts:48-49 | inserting an airport at its own code keeps the invariant that every held airport sits at the path spelling its code |
| `Trie.LastWithCode` | scripts/generate.ts:40-50 | the reference answer is an airport of the sequence that carries the code and that no later airport's code matches, so it is the last one; it is absent exactly when no airport carries the code |
| `Trie.BuildHeld` | scripts/generate.ts:38-50 | last write wins: after the loop (`Build`), the node at every path holds the last airport whose code is that path, and nothing when there is none |
| `Trie.BuildNodes` | scripts/generate.ts:38-50 | the nodes of the tree `Build` returns are exactly the root and the prefixes of the codes |
| `Trie.BuildCodesMatchPaths` | scripts/generate.ts:48-49 | in the built tree every held airport's code is the path from the root to its node |
| `Trie.BuildRootHoldsNothing` | scripts/generate.ts:38 | with non-empty codes, the root node holds no airport |
| `Trie.LastWithCodeOfDistinct` | scripts/generate.ts:40-50 | when codes are distinct, the last airport with a member's code is that member |
| `Trie.BuildReachesEveryAirport` | scripts/generate.ts:40-50 | when codes are distinct, following the code of any airport reaches a node holding that very airport |
| `Trie.TreeExtensionality` | scripts/generate.ts:33-36 | two trees with the same nodes and the same airport at every path are equal |
| `Trie.BuildOrderIndependent` | scripts/generate.ts:40-50 | when codes are distinct, any reordering of the same airports builds the same tree |
| `Emitter.DirPathJoinsDirectory` | scripts/generate.ts:67 | the directory path the recursion writes a unit to is the `/`-join of `Directory`: `data` followed by one segment per character of the unit's address |
| `Emitter.SortedKeys` | scripts/generate.ts:65 | the sorted keys hold every key of the set and nothing else, in strictly increasing order |
| `Emitter.ImportPathShape` | scripts/generate.ts:75 | the import path of a unit at depth `d` is exactly `d + 1` leading `../` groups followed by `types` |
| `Emitter.ImportPathResolvesToTypes` | scripts/generate.ts:73-75 | resolved from the directory of the unit at any address, the import path names `src/types` |
| `Emitter.ReexportLinesProjections` | scripts/generate.ts:87-89 | the re-export lines carry the child specifiers in order, and they export no name and import nothing |
| `Emitter.ContentProjections` | scripts/generate.ts:78-89 | the unit `Content` builds exports the node's airport exactly when the node holds one, under the name its `export const` line binds (the code with surrounding whitespace trimmed, `BoundName`), and imports the type from the depth's import path exactly then; it re-exports the children in sorted key order |
| `Emitter.OneReexportPerChild` | scripts/generate.ts:86-89 | a key is a child of the node exactly when the unit has an `export * from './key'` line; the lines come in strictly increasing key order, so each child has exactly one |
| `Emitter.Emit` | scripts/generate.ts:63-94 | every file the walk from a node writes lies at or below that node's address |
| `Emitter.EmitChildren` | scripts/generate.ts:65-71 | every file written for the children `ks` lies strictly below the node, under one of the keys in `ks` |
| `Emitter.StoreOfAppend` | scripts/generate.ts:92-93 | the files (`StoreOf`) left by two runs of writes are those of the first run, overridden by those of the second |
| `Emitter.EmittedUnits` | scripts/generate.ts:63-94 | after the walk from a node there is a unit exactly at the addresses of the nodes below it, each with the content built for that node at its depth |
| `Emitter.EmittedChildUnits` | scripts/generate.ts:65-71 | after the loop over keys `ks` there is a unit exactly at the nodes under those children, each with the content built for that node |
| `Emitter.DescendantWrittenFirst` | scripts/generate.ts:66-93 | in the walk's order, a node's descendants come before the node itself |
| `Emitter.SmallerKeyWrittenFirst` | scripts/generate.ts:65-71 | below a common ancestor, the subtree under the smaller key comes first in the walk's order |
| `Emitter.EmitOrder` | scripts/generate.ts:63-94 | the writes come in depth-first order: children in increasing key order, and each node after all its children |
| `Emitter.EmitChildrenOrder` | scripts/generate.ts:65-71 | for keys in strictly increasing order, the children's writes come in depth-first order |
| `Emitter.EmitWritesEachAddressOnce` | scripts/generate.ts:63-94 | no address is written twice, so no generated unit overwrites another |
| `Loader.ResolveInvertsChildSpec` | scripts/generate.ts:88 | a specifier resolves from a unit to an address exactly when that address is one character below the unit and the specifier is `./` followed by that character, the form `ChildSpecs` writes |
| `Loader.Namespace` | scripts/generate.ts:86 | loading a missing unit fails, and a successful load exposes every `export const` binding of the unit itself |
| `Generation.UnitOfNode` | scripts/generate.ts:80-89 | the unit at a node's address exports exactly the node's airport, under the node's address with surrounding whitespace trimmed, and re-exports the node's children in sorted order |
| `Generation.BuildHeldUnpadded` | scripts/generate.ts:40-50 | when every code is non-empty, upper-case and without surrounding whitespace, so is every path at which the built tree holds an airport, so each unit binds exactly its own address |
| `Generation.GeneratedStore` | scripts/generate.ts:96-98 | the generator's output (`GenerateFrom`, which `Generate` feeds with the converted rows) holds a unit exactly at every node of the built tree, with the content built for that node at its depth |
| `Generation.NamespaceOfNode` | scripts/generate.ts:86 | loading the unit of any node succeeds and exposes exactly the held airports whose codes start with the node's address, each under its code |
| `Generation.StarsOfNode` | scripts/generate.ts:87-89 | the `export *` lines for the child keys `ks` load, and they bring in exactly the airports held under those children |
| `Generation.NamespaceOffTree` | src/index.ts:26-36 | loading an address that is not a node of the tree fails |
| `Lookup.JoinSlash` | src/index.ts:24 | joining is empty exactly for the empty code, and a code of `n` characters gives a `2n - 1` character path tail |
| `Lookup.JoinSlashAt` | src/index.ts:24 | even positions of the joined string hold the code's characters in order, and odd positions hold `/` |
| `Lookup.SplitJoinSlash` | src/index.ts:24 | the characters can be read back from the joined string |
| `Lookup.ModulePathRoundTrip` | src/index.ts:24 | the module path (`ModulePath`) of a code parses back to the code's own unit address |
| `Lookup.ModulePathInjective` | src/index.ts:24 | distinct codes get distinct module paths, so cache entries never collide |
| `Lookup.DirPathIsJoin` | scripts/generate.ts:67 | below `data`, the generator's directory of a node is its address with `/` between the characters |
| `Lookup.ModulePathIsUnitDirectory` | src/index.ts:24 | for a non-empty code, the path the lookup imports is `./` followed by the directory the generator wrote that code's unit to |
| `Lookup.LoadModuleOfAddress` | src/index.ts:24-30 | importing (`LoadModule`) the module path of an address succeeds exactly when loading the unit at that address does, and then exposes the same exports |
| `Lookup.FreshLookup` | src/index.ts:4-37 | from a fresh process, `lookupAirport` answers what the cache-free `LookupUncached` answers |
| `Lookup.FreshSessionSound` | src/index.ts:4 | the empty cache at process start is sound and has loaded nothing |
| `Lookup.LookupAirport` | src/index.ts:16-37 | the empty code answers `undefined` and touches nothing; otherwise the cached paths become the old ones plus this code's module path (nothing new when it was already cached), every older entry is kept, and logs at most one load, only of an uncached path; with a sound cache, the cache stays sound and the answer is the uncached answer |
| `Lookup.LookupLoadsOnce` | src/index.ts:27-29 | a lookup never loads a path that was already loaded |
| `Lookup.LookupCaseInsensitive` | src/index.ts:20 | a code and its upper-cased form give the same answer and leave the same cache |
| `Lookup.LookupIdempotent` | src/index.ts:27-32 | asking again answers the same and loads nothing |
| `Lookup.FailedLoadStaysCached` | src/index.ts:27-36 | once a path's load failed, lookups of it answer `undefined` without loading again |
| `Lookup.LookupExtendsRun` | src/index.ts:27-32 | one more lookup keeps the cache sound and the loads distinct, loads at most one path not cached at the run's start, and answers as the uncached lookup does |
| `Lookup.LookupAll` | src/index.ts:16-37 | over a run of lookups, every answer is the uncached answer, the cache stays sound, no path is loaded twice, and there is at most one load per query, each of a path not cached at the start |
| `EndToEnd.LookupGenerated` | src/index.ts:16-37 | with the trimming conversion (see "## Findings"; as written, `AsWritten.LookupGeneratedAsWritten`), against the generated units (`Generate`), a lookup of a non-empty code, in any case, answers the last kept airport with the upper-cased code, and `undefined` when there is none |
| `EndToEnd.RoundTrip` | src/index.ts:20-32 | with the trimming conversion (see "## Findings"; as written, `AsWritten.RoundTripAsWritten`), when codes are distinct, looking up any kept row's trimmed code, in any case, finds that row's airport |
| `EndToEnd.UnknownCodeNotFound` | src/index.ts:33-36 | with the trimming conversion (see "## Findings"), a code that no kept row carries, after trimming and up to case, answers `undefined` |
| `EndToEnd.UnitsOfTwo` | scripts/generate.ts:63-98 | the units generated from two airports sit exactly at the root and at the prefixes of their two codes |
| `EndToEnd.PaddedCodeFound` | scripts/generate.ts:17-27 | the intended behaviour, which the source as written does not have (see "## Findings"): with the trimming conversion, a row coded with a letter code behind a space, such as ` JFK`, is kept, and a fresh lookup of the letter code finds its airport |
| `EndToEnd.ExampleUnits` | scripts/generate.ts:63-98 | for two rows coded `JFK` and `LGA`, units are written at exactly `""`, `J`, `JF`, `JFK`, `L`, `LG`, `LGA` |
| `EndToEnd.ExamplePath` | src/index.ts:10-11 | looking up `jfk` imports the module `./data/J/F/K` |
| `EndToEnd.ExampleFound` | src/index.ts:14 | for the same rows, looking up `jfk` from a fresh process finds the `JFK` row's airport |
| `EndToEnd.ExampleNotFound` | src/index.ts:14 | for the same rows, looking up `ORD` answers `undefined` |
| `AsWritten.RowAsWritten` | scripts/generate.ts:20-28 | as written, the airport's code is the row's code upper-cased character by character and not trimmed; the other five columns are copied |
| `AsWritten.AirportsAsWritten` | scripts/generate.ts:17-29 | for the script as written, there is one airport per kept row, and every stored code is non-empty and has no lower-case letter |
| `AsWritten.GenerateAsWritten` | scripts/generate.ts:17-98 | the script as written leaves a unit exactly at every node of the tree built from its airports, each with the content built for that node at its depth |
| `AsWritten.PaddedUnit` | scripts/generate.ts:83 | as written, the unit of an airport coded ` JFK` sits at the padded address but binds the name `JFK` |
| `AsWritten.AsWrittenAgreesWhenUnpadded` | scripts/generate.ts:17-29 | when no kept row's code has surrounding whitespace, the airports and the units of the script as written equal those of the trimming conversion |
| `AsWritten.LookupGeneratedAsWritten` | src/index.ts:16-37 | for the script as written, on data without padded codes, a lookup of a non-empty code, in any case, answers the last kept airport with the upper-cased code, and `undefined` when there is none |
| `AsWritten.RoundTripAsWritten` | src/index.ts:20-32 | for the script as written, on data without padded codes and with distinct codes, looking up any kept row's code, in any case, finds that row's airport |
| `AsWritten.PaddedCodeNotFound` | scripts/generate.ts:17-27 | as written, a row coded with a letter code behind a space passes the filter, yet looking up the padded code and looking up the letter code both answer `undefined` |

## Left out

- CSV reading and parsing (`scripts/generate.ts` lines 1-14) are not modelled. The input is the parsed row sequence, reduced to the six columns the generator copies.
- File-system effects are not modelled: `mkdirSync`, `writeFileSync`, the absolute output directory and the final log line. Writes are a sequence of `(address, unit)` pairs, and the store is what they leave.
- `path.join` normalisation is not modelled. A code containing `.`, `/` or `\` would be normalised by `path.join` into other directories. The model gives every character its own directory level.
- The textual form of a unit is not modelled: the banner text, blank lines and the `JSON.stringify` rendering of the airport. Units are structured lines.
- TypeScript compilation is modelled only as far as the name an `export const` line binds: whitespace around the identifier is skipped, and the model takes the bound name to be the trimmed code (`Emitter.BoundName`). A code that is still not a valid identifier after trimming, such as one with an inner space or a leading digit, cannot compile; the model treats every unit as loadable.
- Ambiguous star exports are not modelled. JavaScript drops a name exported by two `export *` sources. `Loader.Namespace` takes the union instead. In the generated units the names under distinct children are disjoint (`Generation.StarsOfNode`), so the two agree there. A unit's own export shadows star exports in both.
- The type-only `import` has no run-time effect, so the namespace ignores it. Where it points is proved separately (`Emitter.ImportPathResolvesToTypes`).
- `export { Airport }` (`src/index.ts` line 39) only re-exports a type and is not modelled.
- Full Unicode upper-casing is not modelled. `Text.UpperChar` maps only ASCII `a`..`z`; JavaScript's `toUpperCase` maps all of Unicode, sometimes to more than one character.
- Characters outside the Basic Multilingual Plane are not modelled. The generator iterates a code by code points, while `split('')` and `sort()` work on UTF-16 code units. The model uses one `char` per character throughout.
- Promises and `async` are modelled by their settled outcome. Overlapping calls are not modelled: the cache stores the pending promise before it settles, but the model runs calls one after another.
- `moduleCache` is module-level mutable state. It is modelled as an explicit `Session` value passed into and returned by each call. The `loads` log is part of that value only so that "loaded at most once" can be stated.
- The `!iata` guard also rejects non-string falsy inputs in JavaScript. The model's input is always a string, so only the empty string takes that branch.
- The insertion loop (`scripts/generate.ts` lines 40-50) mutates the tree in place. It is modelled by the pure recursive `Trie.Insert` and the fold `Trie.Build`. No tree node is shared, so in-place mutation and rebuilding agree.
- `Emitter.BoundName`: the TypeScript scanner also skips U+0085 (next line) and U+200B (zero-width space) around an identifier, while `trim` keeps them. For a code that starts or ends with one of these two, the bound name is not the trimmed code, and `EndToEnd.LookupGenerated` would claim a find where the source answers `undefined`. The model does not treat these two code points as skipped.
- `Trie.BuildReachesEveryAirport`, `EndToEnd.RoundTrip`: assume distinct codes. With duplicates the later row wins, which is what `Trie.BuildHeld` and `EndToEnd.LookupGenerated` state.

## Findings

| source | as written | input that shows it | evidently intended | confidence | as-written member | corrected member |
|---|---|---|---|---|---|---|
| scripts/generate.ts:27 | the code is upper-cased but not trimmed, although the filter on line 17 keeps a row by its trimmed code; the unit then sits at the padded path while its `export const` binds the trimmed name | a row with `iata_code` ` JFK`: `lookupAirport(" JFK")` finds no export named ` JFK`, and `lookupAirport("JFK")` finds no unit at `./data/J/F/K` | `row.iata_code.trim().toUpperCase()` | medium, not executed | `AsWritten.PaddedCodeNotFound` | `Records.ToAirport`, with the intended property proved in `EndToEnd.PaddedCodeFound` |

=== FILE: aswritten.dfy ===
/** The generator as scripts/generate.ts line 27 writes it: the code is
    upper-cased but not trimmed, although the filter on line 17 judges it
    trimmed. The unit of such a code sits at a path that keeps the padding,
    while its `export const` line binds the trimmed name; a row whose code
    starts with a space is then found under neither spelling. On data where
    no kept code is padded the script as written agrees with the trimming
    conversion `Records.ToAirport`, which the rest of the model uses. */
module AsWritten {
  import opened Basics
  import opened Text
  import opened Records
  import opened Trie
  import opened Emitter
  import opened Loader
  import opened Generation
  import opened Lookup
  import opened EndToEnd

  /** The row-to-object conversion as written: the code upper-cased and
      not trimmed, every other column copied. */
  function RowAsWritten(r: RawRecord): (a: Airport)
    requires HasCode(r)
    ensures |a.iataCode| == |r.iataCode.value|
    ensures forall i :: 0 <= i < |a.iataCode| ==> a.iataCode[i] == UpperChar(r.iataCode.value[i])
    ensures a.latitudeDeg == r.latitudeDeg && a.longitudeDeg == r.longitudeDeg
    ensures a.isoCountry == r.isoCountry && a.isoRegion == r.isoRegion
    ensures a.municipality == r.municipality
  {
    Airport(r.latitudeDeg, r.longitudeDeg, r.isoCountry, r.isoRegion, r.municipality,
            ToUpper(r.iataCode.value))
  }

  /** `validAirports.map(...)` with the conversion as written: one airport
      per kept row, in order, each with a non-empty, upper-case code. */
  function AirportsAsWritten(rs: seq<RawRecord>): (airports: seq<Airport>)
    ensures |airports| == |FilterValid(rs)|
    ensures forall i :: 0 <= i < |airports| ==>
      airports[i].iataCode != [] && IsUpperCase(airports[i].iataCode)
  {
    var kept := FilterValid(rs);
    assert forall i :: 0 <= i < |kept| ==> kept[i] in kept;
    seq(|kept|, i requires 0 <= i < |kept| => RowAsWritten(kept[i]))
  }

  /** The script as written: the units hold one unit per node of the tree
      built from the airports as written, each with that node's content. */
  function GenerateAsWritten(rs: seq<RawRecord>): (store: Store)
    ensures IsStoreOf(store, Build(AirportsAsWritten(rs)))
  {
    GeneratedStore(AirportsAsWritten(rs));
    GenerateFrom(AirportsAsWritten(rs))
  }

  /** A row whose plain code has a leading space is kept, and as written
      its airport keeps the space. */
  lemma PaddedRowKept(r: RawRecord, code: string)
    requires PlainCode(code) && r.iataCode == Some([' '] + code)
    ensures HasCode(r)
    ensures RowAsWritten(r).iataCode == [' '] + code
  {
    TrimPadded(code);
    UpperPadded(code);
  }

  /** A single kept row gives a single airport. */
  lemma OneRowAsWritten(r: RawRecord)
    requires HasCode(r)
    ensures AirportsAsWritten([r]) == [RowAsWritten(r)]
  {
    assert [r][1..] == [];
    assert FilterValid([r]) == [r] + FilterValid([]);
  }

  /** A node at the full code of the only airport has no children. */
  lemma NoChildBelowOnlyCode(a: Airport)
    ensures Has(Build([a]), a.iataCode)
    ensures Find(Build([a]), a.iataCode).value.children.Keys == {}
  {
    var t := Build([a]);
    BuildNodes([a]);
    assert a.iataCode <= [a][0].iataCode;
    assert Has(t, a.iataCode);
    forall k | k in Find(t, a.iataCode).value.children ensures false {
      FindAppend(t, a.iataCode, [k]);
      FindChild(Find(t, a.iataCode).value, k);
      assert Has(t, a.iataCode + [k]);
    }
  }

  /** The unit of a node without children exposes only its own export. */
  lemma NamespaceOfLeaf(store: Store, t: Tree, addr: Address)
    requires IsStoreOf(store, t) && CodesMatchPaths(t) && Has(t, addr)
    requires Find(t, addr).value.children.Keys == {}
    ensures addr in store
    ensures Namespace(store, addr) == Some(OwnExports(store[addr]))
  {
    UnitOfNode(store, t, addr);
    assert SortedKeys({}) == [];
    assert ReexportSpecs(store[addr]) == ChildSpecs([]) == [];
    NoStarExports(store, addr);
    NamespaceOfUnit(store, addr);
    MergeIntoEmpty(OwnExports(store[addr]));
  }

  /** Merging bindings over no star exports leaves the bindings. */
  lemma MergeIntoEmpty(own: map<string, Airport>)
    ensures map[] + own == own
  {
  }

  /** A unit without `export *` lines brings nothing in from elsewhere. */
  lemma NoStarExports(store: Store, addr: Address)
    requires addr in store
    ensures StarExports(store, addr, []) == Some(map[])
  {
  }

  /** As written, the unit of the only airport, at its padded code, binds
      the trimmed code. */
  lemma PaddedUnit(a: Airport, code: string)
    requires PlainCode(code) && a.iataCode == [' '] + code
    ensures Namespace(GenerateFrom([a]), a.iataCode) == Some(map[code := a])
  {
    var t := Build([a]);
    var store := GenerateFrom([a]);
    GeneratedStore([a]);
    BuildCodesMatchPaths([a]);
    BuildHeld([a]);
    NoChildBelowOnlyCode(a);
    NamespaceOfLeaf(store, t, a.iataCode);
    UnitOfNode(store, t, a.iataCode);
    assert LastWithCode([a], a.iataCode) == Some(a);
    TrimPadded(code);
  }

  /** As written, no node sits at the trimmed code when the only code is
      padded. */
  lemma PaddedNoUnitAtTrimmed(a: Airport, code: string)
    requires PlainCode(code) && a.iataCode == [' '] + code
    ensures Namespace(GenerateFrom([a]), code).None?
  {
    var t := Build([a]);
    GeneratedStore([a]);
    BuildNodes([a]);
    PaddedDiffers(code);
    NamespaceOffTree(GenerateFrom([a]), t, code);
  }

  /** As written, the only airport, with a padded code, is looked up in
      vain by that code: its unit binds the trimmed code. */
  lemma OwnCodeLost(a: Airport, code: string)
    requires PlainCode(code) && a.iataCode == [' '] + code
    ensures LookupUncached(GenerateFrom([a]), [' '] + code) == None
  {
    var store := GenerateFrom([a]);
    UpperPadded(code);
    PaddedDiffers(code);
    PaddedUnit(a, code);
    LoadModuleOfAddress(store, [' '] + code);
    assert !([' '] + code in map[code := a]);
  }

  /** As written, the only airport, with a padded code, is looked up in
      vain by its trimmed code: there is no unit there. */
  lemma TrimmedCodeLost(a: Airport, code: string)
    requires PlainCode(code) && a.iataCode == [' '] + code
    ensures LookupUncached(GenerateFrom([a]), code) == None
  {
    var store := GenerateFrom([a]);
    UpperPadded(code);
    PaddedNoUnitAtTrimmed(a, code);
    LoadModuleOfAddress(store, code);
  }

  /** The counterexample: a row coded ` JFK` (any plain code behind a
      space) passes the filter, yet looking it up by its own code or by its
      trimmed code answers `undefined`. */
  lemma PaddedCodeNotFound(r: RawRecord, code: string)
    requires PlainCode(code) && r.iataCode == Some([' '] + code)
    ensures HasCode(r)
    ensures LookupAirport(Fresh, GenerateAsWritten([r]), [' '] + code).airport == None
    ensures LookupAirport(Fresh, GenerateAsWritten([r]), code).airport == None
  {
    PaddedRowKept(r, code);
    OneRowAsWritten(r);
    var a := RowAsWritten(r);
    var store := GenerateAsWritten([r]);
    assert store == GenerateFrom([a]);
    OwnCodeLost(a, code);
    TrimmedCodeLost(a, code);
    FreshLookup(store, [' '] + code);
    FreshLookup(store, code);
  }

  /** When no kept code has surrounding whitespace, which holds of every
      real IATA code, trimming changes nothing: the script as written and
      the trimming conversion produce the same airports and the same units. */
  lemma AsWrittenAgreesWhenUnpadded(rs: seq<RawRecord>)
    requires forall r :: r in rs && HasCode(r) ==> Unpadded(r.iataCode.value)
    ensures AirportsAsWritten(rs) == Airports(rs)
    ensures GenerateAsWritten(rs) == Generate(rs)
  {
    var kept := FilterValid(rs);
    forall i | 0 <= i < |kept| ensures AirportsAsWritten(rs)[i] == Airports(rs)[i] {
      assert kept[i] in kept;
      TrimFixesUnpadded(kept[i].iataCode.value);
      AirportOfKept(rs, i);
    }
  }

  /** As written, on data without padded codes, a lookup of a non-empty
      code, in any case, answers the last kept airport with the upper-cased
      code, and `undefined` when there is none. */
  lemma LookupGeneratedAsWritten(rs: seq<RawRecord>, s: Session, iata: string)
    requires forall r :: r in rs && HasCode(r) ==> Unpadded(r.iataCode.value)
    requires CacheSound(s, GenerateAsWritten(rs))
    requires iata != []
    ensures LookupAirport(s, GenerateAsWritten(rs), iata).airport ==
            LastWithCode(AirportsAsWritten(rs), ToUpper(iata))
  {
    AsWrittenAgreesWhenUnpadded(rs);
    LookupGenerated(rs, s, iata);
  }

  /** The round trip as written: on data without padded codes and with
      distinct codes, looking up any kept row's code, in any case, finds
      that row's airport. */
  lemma RoundTripAsWritten(rs: seq<RawRecord>, r: RawRecord, s: Session, iata: string)
    requires forall r' :: r' in rs && HasCode(r') ==> Unpadded(r'.iataCode.value)
    requires r in rs && HasCode(r)
    requires DistinctCodes(AirportsAsWritten(rs))
    requires ToUpper(iata) == ToUpper(r.iataCode.value)
    requires CacheSound(s, GenerateAsWritten(rs))
    ensures LookupAirport(s, GenerateAsWritten(rs), iata).airport == Some(RowAsWritten(r))
  {
    AsWrittenAgreesWhenUnpadded(rs);
    TrimFixesUnpadded(r.iataCode.value);
    assert RowAsWritten(r) == ToAirport(r);
    RoundTrip(rs, r, s, iata);
  }
}

=== FILE: basics.dfy ===
/** Shared vocabulary: the optional value used for JavaScript's `undefined`
    and for results that may be absent. */
module Basics {

  /** `None` plays the part of `undefined` in the source. */
  datatype Option<+T> = None | Some(value: T)
}

=== FILE: emitter.dfy ===
/** The unit emitter `generateNodeFiles` (scripts/generate.ts lines 63-98):
    a depth-first walk of the tree in sorted child order that writes one
    `index.ts` unit per node. File writes are modelled as a sequence of
    (address, unit) pairs; a unit is the sequence of its lines. */
module Emitter {
  import opened Basics
  import opened Text
  import opened Records
  import opened Trie

  /** A unit address: the characters of the path from the root, one
      directory level per character. */
  type Address = string

  /** The lines a generated `index.ts` can contain. */
  datatype Line =
    | Banner                                    // the "Auto-generated" comment
    | ImportType(from: string)                  // import { Airport } from '<from>';
    | ExportConst(name: string, value: Airport) // export const <name>: Airport = <value as JSON>;
    | ReexportAll(from: string)                 // export * from '<from>';

  /** The content of one generated file. */
  type Unit = seq<Line>

  /** `fs.writeFileSync(path.join(dir, 'index.ts'), content)` for the
      directory of `address`. */
  datatype Write = Write(address: Address, unit: Unit)

  /** Directory levels of the unit at `addr`, relative to `src`:
      `data` followed by one level per character. */
  function Directory(addr: Address): (segs: seq<string>)
    ensures |segs| == |addr| + 1 && segs[0] == "data"
    ensures forall i :: 0 <= i < |addr| ==> segs[i + 1] == [addr[i]]
  {
    ["data"] + seq(|addr|, i requires 0 <= i < |addr| => [addr[i]])
  }

  /** The `dir` argument of `generateNodeFiles` for the unit at `addr`,
      relative to `src`: `data`, then `path.join(dir, key)` per level. */
  function DirPath(addr: Address): string
  {
    if addr == [] then "data" else DirPath(addr[..|addr| - 1]) + "/" + [addr[|addr| - 1]]
  }

  /** `segs.join('/')`, built from the last segment back. */
  function JoinPath(segs: seq<string>): string
  {
    if segs == [] then []
    else if |segs| == 1 then segs[0]
    else JoinPath(segs[..|segs| - 1]) + "/" + segs[|segs| - 1]
  }

  /** The directory string the walk passes down is the `/`-join of the
      directory levels of the unit, so `Directory` and `DirPath` name the
      same place. */
  lemma {:induction false} DirPathJoinsDirectory(addr: Address)
    ensures DirPath(addr) == JoinPath(Directory(addr))
    decreases |addr|
  {
    if addr != [] {
      var init := addr[..|addr| - 1];
      DirPathJoinsDirectory(init);
      DirectorySnoc(addr);
    }
  }

  lemma DirectorySnoc(addr: Address)
    requires addr != []
    ensures Directory(addr)[..|addr|] == Directory(addr[..|addr| - 1])
    ensures Directory(addr)[|addr|] == [addr[|addr| - 1]]
  {
  }

  /** A finite set of characters has a least element. */
  lemma MinExists(s: set<char>)
    requires s != {}
    ensures exists m :: m in s && forall x :: x in s ==> m <= x
  {
    var y :| y in s;
    if s != {y} {
      MinExists(s - {y});
      var m :| m in s - {y} && forall x :: x in s - {y} ==> m <= x;
      var w := if y < m then y else m;
      forall x | x in s ensures w <= x {
        if x != y { assert x in s - {y}; }
      }
    }
  }

  /** `Object.keys(node.children).sort()`: every key once, in increasing
      order. */
  function SortedKeys(s: set<char>): (ks: seq<char>)
    ensures forall k :: k in s <==> k in ks
    ensures forall i, j :: 0 <= i < j < |ks| ==> ks[i] < ks[j]
    decreases s
  {
    if s == {} then []
    else
      MinExists(s);
      var m :| m in s && forall x :: x in s ==> m <= x;
      [m] + SortedKeys(s - {m})
  }

  /** `'../'.repeat(n)`. */
  function Ups(n: nat): string
  {
    if n == 0 then [] else "../" + Ups(n - 1)
  }

  /** `'../'.repeat(depth + 1) + 'types'`, the import path of the `Airport`
      type in a unit at `depth`. */
  function ImportPath(depth: nat): string
  {
    Ups(depth + 1) + "types"
  }

  /** Strips leading `../` groups, counting them: the input is that many
      groups followed by the rest. */
  function StripUps(s: string): (r: (nat, string))
    ensures s == Ups(r.0) + r.1
    decreases |s|
  {
    if |s| >= 3 && s[..3] == "../" then
      var rest := StripUps(s[3..]);
      assert s == "../" + s[3..];
      (rest.0 + 1, rest.1)
    else (0, s)
  }

  /** The import path of a unit at depth `d` is exactly `d + 1` copies of
      `../` followed by `types`. */
  lemma {:induction false} ImportPathShape(depth: nat)
    ensures StripUps(ImportPath(depth)) == (depth + 1, "types")
  {
    UpsThenName(depth + 1, "types");
  }

  lemma {:induction false} UpsThenName(n: nat, name: string)
    requires name == [] || name[0] != '.'
    ensures StripUps(Ups(n) + name) == (n, name)
  {
    if n == 0 {
      assert Ups(0) + name == name;
    } else {
      UpsThenName(n - 1, name);
      StripOneUp(Ups(n - 1) + name);
      assert Ups(n) + name == "../" + (Ups(n - 1) + name);
    }
  }

  lemma StripOneUp(rest: string)
    ensures StripUps("../" + rest) == (StripUps(rest).0 + 1, StripUps(rest).1)
  {
    var s := "../" + rest;
    assert s[..3] == "../" && s[3..] == rest;
  }

  /** Relative module resolution from a directory: each leading `../`
      climbs one level (failing above the top), the rest names an entry. */
  function ResolveUp(dir: seq<string>, spec: string): Option<seq<string>>
    decreases |spec|
  {
    if |spec| >= 3 && spec[..3] == "../" then
      if dir == [] then None else ResolveUp(dir[..|dir| - 1], spec[3..])
    else Some(dir + [spec])
  }

  lemma {:induction false} ResolveUps(dir: seq<string>, n: nat, name: string)
    requires n <= |dir|
    requires name == [] || name[0] != '.'
    ensures ResolveUp(dir, Ups(n) + name) == Some(dir[..|dir| - n] + [name])
  {
    if n == 0 {
      assert Ups(0) + name == name;
      assert dir[..|dir|] == dir;
    } else {
      var s := Ups(n) + name;
      assert s == "../" + (Ups(n - 1) + name);
      assert s[..3] == "../" && s[3..] == Ups(n - 1) + name;
      ResolveUps(dir[..|dir| - 1], n - 1, name);
      assert dir[..|dir| - 1][..|dir| - 1 - (n - 1)] == dir[..|dir| - n];
    }
  }

  /** From the directory of the unit at any address, the import path
      resolves to `src/types`. */
  lemma ImportPathResolvesToTypes(addr: Address)
    ensures ResolveUp(["src"] + Directory(addr), ImportPath(|addr|)) == Some(["src", "types"])
  {
    var dir := ["src"] + Directory(addr);
    assert "types"[0] == 't';
    assert ImportPath(|addr|) == Ups(|addr| + 1) + "types";
    ResolveUps(dir, |addr| + 1, "types");
    assert dir[..|dir| - (|addr| + 1)] == ["src"];
    assert ["src"] + ["types"] == ["src", "types"];
  }

  /** The `export * from './<key>'` specifiers for the keys `ks`, in order. */
  function ChildSpecs(ks: seq<char>): (specs: seq<string>)
    ensures |specs| == |ks|
    ensures forall i :: 0 <= i < |ks| ==> specs[i] == "./" + [ks[i]]
  {
    seq(|ks|, i requires 0 <= i < |ks| => "./" + [ks[i]])
  }

  lemma ChildSpecsCons(ks: seq<char>)
    requires ks != []
    ensures ChildSpecs(ks) == ["./" + [ks[0]]] + ChildSpecs(ks[1..])
  {
  }

  /** The re-export lines for the keys `ks`, in order. */
  function ReexportLines(ks: seq<char>): (lines: Unit)
  {
    seq(|ks|, i requires 0 <= i < |ks| => ReexportAll("./" + [ks[i]]))
  }

  /** The name an `export const <name>: Airport` line binds. TypeScript
      skips the whitespace and line terminators around an identifier; for
      every code point `trim` removes that gives the trimmed text. The
      scanner also skips U+0085 and U+200B, which `trim` keeps; those two
      are not modelled here. */
  function BoundName(l: Line): string
    requires l.ExportConst?
  {
    Trim(l.name)
  }

  /** The names and values a unit declares with `export const`. */
  function OwnExports(u: Unit): map<string, Airport>
  {
    if u == [] then map[]
    else (if u[0].ExportConst? then map[BoundName(u[0]) := u[0].value] else map[]) + OwnExports(u[1..])
  }

  /** The specifiers of a unit's `export *` lines, in order. */
  function ReexportSpecs(u: Unit): seq<string>
  {
    if u == [] then []
    else (if u[0].ReexportAll? then [u[0].from] else []) + ReexportSpecs(u[1..])
  }

  /** The specifiers of a unit's `import` lines, in order. */
  function ImportSpecs(u: Unit): seq<string>
  {
    if u == [] then []
    else (if u[0].ImportType? then [u[0].from] else []) + ImportSpecs(u[1..])
  }

  lemma {:induction false} ReexportLinesProjections(ks: seq<char>)
    ensures ReexportSpecs(ReexportLines(ks)) == ChildSpecs(ks)
    ensures OwnExports(ReexportLines(ks)) == map[]
    ensures ImportSpecs(ReexportLines(ks)) == []
  {
    if ks != [] {
      assert ReexportLines(ks)[1..] == ReexportLines(ks[1..]);
      ReexportLinesProjections(ks[1..]);
      assert ChildSpecs(ks) == [ChildSpecs(ks)[0]] + ChildSpecs(ks[1..]);
    }
  }

  /** The projections of a unit read its first line, then the rest. */
  lemma ProjectionsOfCons(l: Line, rest: Unit)
    ensures OwnExports([l] + rest) ==
      (if l.ExportConst? then map[BoundName(l) := l.value] else map[]) + OwnExports(rest)
    ensures ReexportSpecs([l] + rest) == (if l.ReexportAll? then [l.from] else []) + ReexportSpecs(rest)
    ensures ImportSpecs([l] + rest) == (if l.ImportType? then [l.from] else []) + ImportSpecs(rest)
  {
    assert ([l] + rest)[0] == l && ([l] + rest)[1..] == rest;
  }

  /** The content `generateNodeFiles` builds for `node` at `depth`: the
      banner; when the node holds an airport, the type import and the
      airport exported under its code; then one re-export per child, in
      sorted key order. */
  function Content(node: Tree, depth: nat): Unit
  {
    var rest := ReexportLines(SortedKeys(node.children.Keys));
    if node.airport.Some? then
      var a := node.airport.value;
      [Banner] + ([ImportType(ImportPath(depth))] + ([ExportConst(a.iataCode, a)] + rest))
    else
      [Banner] + rest
  }

  /** Read back, a unit exports the node's airport under its trimmed code
      exactly when the node holds one, imports the `Airport` type from
      `ImportPath(depth)` exactly then, and re-exports the children in
      sorted key order. */
  lemma ContentProjections(node: Tree, depth: nat)
    ensures OwnExports(Content(node, depth)) ==
      if node.airport.Some? then map[Trim(node.airport.value.iataCode) := node.airport.value] else map[]
    ensures ReexportSpecs(Content(node, depth)) == ChildSpecs(SortedKeys(node.children.Keys))
    ensures ImportSpecs(Content(node, depth)) == if node.airport.Some? then [ImportPath(depth)] else []
  {
    var ks := SortedKeys(node.children.Keys);
    var rest := ReexportLines(ks);
    ReexportLinesProjections(ks);
    if node.airport.Some? {
      var a := node.airport.value;
      HeldContentProjections(a, ImportPath(depth), rest);
    } else {
      ProjectionsOfCons(Banner, rest);
    }
  }

  lemma HeldContentProjections(a: Airport, path: string, rest: Unit)
    requires OwnExports(rest) == map[] && ImportSpecs(rest) == []
    ensures OwnExports([Banner] + ([ImportType(path)] + ([ExportConst(a.iataCode, a)] + rest)))
      == map[Trim(a.iataCode) := a]
    ensures ReexportSpecs([Banner] + ([ImportType(path)] + ([ExportConst(a.iataCode, a)] + rest)))
      == ReexportSpecs(rest)
    ensures ImportSpecs([Banner] + ([ImportType(path)] + ([ExportConst(a.iataCode, a)] + rest)))
      == [path]
  {
    var withExport := [ExportConst(a.iataCode, a)] + rest;
    var withImport := [ImportType(path)] + withExport;
    var own := map[BoundName(ExportConst(a.iataCode, a)) := a];
    ProjectionsOfCons(ExportConst(a.iataCode, a), rest);
    assert OwnExports(withExport) == own + map[];
    ProjectionsOfCons(ImportType(path), withExport);
    assert OwnExports(withImport) == map[] + own;
    ProjectionsOfCons(Banner, withImport);
    assert OwnExports([Banner] + withImport) == map[] + own;
  }

  /** The specifiers for strictly increasing keys name each key once, in
      increasing order. */
  lemma ChildSpecsOfSorted(ks: seq<char>)
    requires forall i, j :: 0 <= i < j < |ks| ==> ks[i] < ks[j]
    ensures forall k :: k in ks <==> "./" + [k] in ChildSpecs(ks)
    ensures forall i, j :: 0 <= i < j < |ChildSpecs(ks)| ==>
      |ChildSpecs(ks)[i]| == 3 && |ChildSpecs(ks)[j]| == 3 && ChildSpecs(ks)[i][2] < ChildSpecs(ks)[j][2]
  {
    var specs := ChildSpecs(ks);
    forall k ensures k in ks <==> "./" + [k] in specs {
      if "./" + [k] in specs {
        var i :| 0 <= i < |specs| && specs[i] == "./" + [k];
        assert specs[i][2] == k && specs[i][2] == ks[i];
      }
      if k in ks {
        var i :| 0 <= i < |ks| && ks[i] == k;
        assert specs[i] == "./" + [k];
      }
    }
  }

  /** Each child gets exactly one `export *` line, and they come in strictly
      increasing key order. */
  lemma OneReexportPerChild(node: Tree, depth: nat)
    ensures forall k :: k in node.children <==> "./" + [k] in ReexportSpecs(Content(node, depth))
    ensures forall i, j :: 0 <= i < j < |ReexportSpecs(Content(node, depth))| ==>
      var specs := ReexportSpecs(Content(node, depth));
      |specs[i]| == 3 && |specs[j]| == 3 && specs[i][2] < specs[j][2]
  {
    ContentProjections(node, depth);
    ChildSpecsOfSorted(SortedKeys(node.children.Keys));
  }

  /** `generateNodeFiles(node, dir, depth)` with `dir` the directory of
      `addr` and `depth == |addr|`: first the subtrees of the children in
      sorted key order, then the node's own file. */
  function Emit(t: Tree, addr: Address): (ws: seq<Write>)
    ensures forall i :: 0 <= i < |ws| ==> addr <= ws[i].address
    decreases t, 1, 0
  {
    EmitChildren(t, addr, SortedKeys(t.children.Keys)) + [Write(addr, Content(t, |addr|))]
  }

  /** The loop over the sorted keys `ks` of the children of `t`. */
  function EmitChildren(t: Tree, addr: Address, ks: seq<char>): (ws: seq<Write>)
    requires forall k :: k in ks ==> k in t.children
    ensures forall i :: 0 <= i < |ws| ==>
      (|addr| < |ws[i].address| && addr <= ws[i].address && ws[i].address[|addr|] in ks)
    decreases t, 0, |ks|
  {
    if ks == [] then []
    else
      var head := Emit(t.children[ks[0]], addr + [ks[0]]);
      var tail := EmitChildren(t, addr, ks[1..]);
      assert forall i :: 0 <= i < |head| ==> (addr + [ks[0]]) <= head[i].address;
      head + tail
  }

  /** The store left behind by a sequence of writes: a later write to the
      same address replaces an earlier one. */
  function StoreOf(ws: seq<Write>): map<Address, Unit>
  {
    if ws == [] then map[]
    else StoreOf(ws[..|ws| - 1])[ws[|ws| - 1].address := ws[|ws| - 1].unit]
  }

  lemma {:induction false} StoreOfAppend(ws1: seq<Write>, ws2: seq<Write>)
    ensures StoreOf(ws1 + ws2) == StoreOf(ws1) + StoreOf(ws2)
    decreases |ws2|
  {
    if ws2 == [] {
      assert ws1 + ws2 == ws1;
    } else {
      var n := |ws2| - 1;
      assert (ws1 + ws2)[..|ws1 + ws2| - 1] == ws1 + ws2[..n];
      StoreOfAppend(ws1, ws2[..n]);
    }
  }

  /** The paths below `addr` whose next character is `k` are the paths
      below `addr + [k]`, and lead through the child at `k`. */
  lemma ChildPaths(t: Tree, addr: Address, k: char, x: Address)
    requires k in t.children
    ensures (|addr| < |x| && addr <= x && x[|addr|] == k) <==> addr + [k] <= x
    ensures addr + [k] <= x ==> Find(t, x[|addr|..]) == Find(t.children[k], x[|addr| + 1..])
  {
    if |addr| < |x| && addr <= x && x[|addr|] == k {
      assert x[..|addr| + 1] == x[..|addr|] + [x[|addr|]];
    }
    if addr + [k] <= x {
      assert x[..|addr|] == (addr + [k])[..|addr|];
      assert x[|addr|..] == [k] + x[|addr| + 1..];
      FindAppend(t, [k], x[|addr| + 1..]);
      FindChild(t, k);
    }
  }

  /** The store `generateNodeFiles(t, ...)` leaves at the addresses below
      `addr`: a unit exactly at the addresses of the nodes of `t`, holding
      the content computed for that node at its depth. */
  lemma {:induction false} EmittedUnits(t: Tree, addr: Address)
    ensures forall x :: x in StoreOf(Emit(t, addr)) <==> addr <= x && Has(t, x[|addr|..])
    ensures forall x :: x in StoreOf(Emit(t, addr)) ==>
      Has(t, x[|addr|..]) && StoreOf(Emit(t, addr))[x] == Content(Find(t, x[|addr|..]).value, |x|)
    decreases t, 1, 0
  {
    var ks := SortedKeys(t.children.Keys);
    var own := Write(addr, Content(t, |addr|));
    var kids := EmitChildren(t, addr, ks);
    EmittedChildUnits(t, addr, ks);
    StoreOfAppend(kids, [own]);
    assert [own][..0] == [];
    assert StoreOf([own]) == map[addr := own.unit];
    var s := StoreOf(Emit(t, addr));
    assert s == StoreOf(kids)[addr := own.unit];
    forall x
      ensures x in s <==> addr <= x && Has(t, x[|addr|..])
      ensures x in s ==> Has(t, x[|addr|..]) && s[x] == Content(Find(t, x[|addr|..]).value, |x|)
    {
      if x == addr {
        assert x[|addr|..] == [];
      } else if addr <= x && Has(t, x[|addr|..]) {
        var q := x[|addr|..];
        assert q != [] && q[0] == x[|addr|];
        assert x[|addr|] in t.children;
      }
    }
  }

  lemma {:induction false} EmittedChildUnits(t: Tree, addr: Address, ks: seq<char>)
    requires forall k :: k in ks ==> k in t.children
    ensures forall x :: x in StoreOf(EmitChildren(t, addr, ks)) <==>
      |addr| < |x| && addr <= x && x[|addr|] in ks && Has(t, x[|addr|..])
    ensures forall x :: x in StoreOf(EmitChildren(t, addr, ks)) ==>
      Has(t, x[|addr|..]) && StoreOf(EmitChildren(t, addr, ks))[x] == Content(Find(t, x[|addr|..]).value, |x|)
    decreases t, 0, |ks|
  {
    if ks == [] {
      assert StoreOf(EmitChildren(t, addr, ks)) == map[];
    } else {
      var k := ks[0];
      var child := t.children[k];
      var sub := addr + [k];
      var head := Emit(child, sub);
      var tail := EmitChildren(t, addr, ks[1..]);
      assert EmitChildren(t, addr, ks) == head + tail;
      EmittedUnits(child, sub);
      EmittedChildUnits(t, addr, ks[1..]);
      StoreOfAppend(head, tail);
      var s1 := StoreOf(head);
      var s2 := StoreOf(tail);
      var s := StoreOf(EmitChildren(t, addr, ks));
      assert s == s1 + s2;
      forall x
        ensures x in s <==> |addr| < |x| && addr <= x && x[|addr|] in ks && Has(t, x[|addr|..])
        ensures x in s ==> Has(t, x[|addr|..]) && s[x] == Content(Find(t, x[|addr|..]).value, |x|)
      {
        ChildPaths(t, addr, k, x);
        assert |sub| == |addr| + 1;
        if x in s2 {
        } else if x in s1 {
        } else if |addr| < |x| && addr <= x && x[|addr|] in ks {
          assert x[|addr|] == k || x[|addr|] in ks[1..];
        }
      }
    }
  }

  /** The order of a depth-first walk that visits children in increasing
      key order and writes a node after its children: `a` comes before `b`
      when `b` is a proper prefix of `a` (an ancestor), or when `a` has the
      smaller character where they first differ. */
  predicate WrittenBefore(a: Address, b: Address)
    decreases |a|
  {
    if a == [] then false
    else if b == [] then true
    else if a[0] != b[0] then a[0] < b[0]
    else WrittenBefore(a[1..], b[1..])
  }

  /** No address comes before itself, so ordered writes never repeat an
      address. */
  lemma {:induction false} WrittenBeforeIrreflexive(a: Address)
    ensures !WrittenBefore(a, a)
    decreases |a|
  {
    if a != [] {
      WrittenBeforeIrreflexive(a[1..]);
    }
  }

  /** A descendant is written before its ancestor. */
  lemma {:induction false} DescendantWrittenFirst(addr: Address, x: Address)
    requires addr <= x && |addr| < |x|
    ensures WrittenBefore(x, addr)
    decreases |addr|
  {
    if addr != [] {
      assert x[0] == addr[0];
      assert addr[1..] <= x[1..];
      DescendantWrittenFirst(addr[1..], x[1..]);
    }
  }

  /** Below a common ancestor, the subtree of the smaller key is written
      first. */
  lemma {:induction false} SmallerKeyWrittenFirst(addr: Address, x: Address, y: Address)
    requires addr <= x && addr <= y && |addr| < |x| && |addr| < |y|
    requires x[|addr|] < y[|addr|]
    ensures WrittenBefore(x, y)
    decreases |addr|
  {
    if addr != [] {
      assert x[0] == addr[0] == y[0];
      assert addr[1..] <= x[1..] && addr[1..] <= y[1..];
      SmallerKeyWrittenFirst(addr[1..], x[1..], y[1..]);
    }
  }

  /** `generateNodeFiles` writes in depth-first order, children in sorted
      key order and each node after its children; in particular every
      address is written once. */
  lemma {:induction false} EmitOrder(t: Tree, addr: Address)
    ensures forall i, j :: 0 <= i < j < |Emit(t, addr)| ==>
      WrittenBefore(Emit(t, addr)[i].address, Emit(t, addr)[j].address)
    decreases t, 1, 0
  {
    var ks := SortedKeys(t.children.Keys);
    var kids := EmitChildren(t, addr, ks);
    var ws := Emit(t, addr);
    EmitChildrenOrder(t, addr, ks);
    assert ws == kids + [Write(addr, Content(t, |addr|))];
    forall i, j | 0 <= i < j < |ws| ensures WrittenBefore(ws[i].address, ws[j].address) {
      if j == |kids| {
        DescendantWrittenFirst(addr, ws[i].address);
      } else {
        assert ws[i] == kids[i] && ws[j] == kids[j];
      }
    }
  }

  /** No address is written twice, so no unit overwrites another. */
  lemma EmitWritesEachAddressOnce(t: Tree, addr: Address)
    ensures forall i, j :: 0 <= i < j < |Emit(t, addr)| ==>
      Emit(t, addr)[i].address != Emit(t, addr)[j].address
  {
    var ws := Emit(t, addr);
    EmitOrder(t, addr);
    forall i, j | 0 <= i < j < |ws| ensures ws[i].address != ws[j].address {
      WrittenBeforeIrreflexive(ws[i].address);
    }
  }

  lemma {:induction false} EmitChildrenOrder(t: Tree, addr: Address, ks: seq<char>)
    requires forall k :: k in ks ==> k in t.children
    requires forall i, j :: 0 <= i < j < |ks| ==> ks[i] < ks[j]
    ensures forall i, j :: 0 <= i < j < |EmitChildren(t, addr, ks)| ==>
      WrittenBefore(EmitChildren(t, addr, ks)[i].address, EmitChildren(t, addr, ks)[j].address)
    decreases t, 0, |ks|
  {
    if ks != [] {
      var k := ks[0];
      var sub := addr + [k];
      var head := Emit(t.children[k], sub);
      var tail := EmitChildren(t, addr, ks[1..]);
      var ws := EmitChildren(t, addr, ks);
      assert ws == head + tail;
      EmitOrder(t.children[k], sub);
      EmitChildrenOrder(t, addr, ks[1..]);
      forall i, j | 0 <= i < j < |ws| ensures WrittenBefore(ws[i].address, ws[j].address) {
        if j < |head| {
          assert ws[i] == head[i] && ws[j] == head[j];
        } else if i >= |head| {
          assert ws[i] == tail[i - |head|] && ws[j] == tail[j - |head|];
        } else {
          var x := head[i].address;
          var y := tail[j - |head|].address;
          assert sub <= x;
          assert x[..|addr|] == sub[..|addr|];
          assert x[|addr|] == k;
          assert y[|addr|] in ks[1..];
          SmallerKeyWrittenFirst(addr, x, y);
        }
      }
    }
  }
}

=== FILE: endtoend.dfy ===
/** Generation and lookup together: looking a code up in the generated store
    answers the airport the generator stored for that code. */
module EndToEnd {
  import opened Basics
  import opened Text
  import opened Records
  import opened Trie
  import opened Emitter
  import opened Loader
  import opened Generation
  import opened Lookup

  /** Looking up a non-empty code, in any case, against the generated store
      answers the last kept airport with the upper-cased code, and
      `undefined` when there is none. */
  lemma LookupGenerated(rs: seq<RawRecord>, s: Session, iata: string)
    requires CacheSound(s, Generate(rs))
    requires iata != []
    ensures LookupAirport(s, Generate(rs), iata).airport == LastWithCode(Airports(rs), ToUpper(iata))
  {
    var store := Generate(rs);
    var t := Build(Airports(rs));
    var upper := ToUpper(iata);
    GeneratedStore(Airports(rs));
    BuildCodesMatchPaths(Airports(rs));
    BuildHeldUnpadded(Airports(rs));
    BuildHeld(Airports(rs));
    LoadModuleOfAddress(store, upper);
    if Has(t, upper) {
      NamespaceOfNode(store, t, upper);
      assert upper <= upper;
    } else {
      NamespaceOffTree(store, t, upper);
    }
  }

  /** The round trip: the airport of any kept row is found by its trimmed
      code written in any case, when codes are distinct. */
  lemma RoundTrip(rs: seq<RawRecord>, r: RawRecord, s: Session, iata: string)
    requires r in rs && HasCode(r)
    requires DistinctCodes(Airports(rs))
    requires ToUpper(iata) == ToUpper(Trim(r.iataCode.value))
    requires CacheSound(s, Generate(rs))
    ensures LookupAirport(s, Generate(rs), iata).airport == Some(ToAirport(r))
  {
    KeptRowBecomesAirport(rs, r);
    LookupGenerated(rs, s, iata);
    LastWithCodeOfDistinct(Airports(rs), ToAirport(r));
  }

  /** A row coded with a plain code behind a space, such as ` JFK`, is
      found by the plain code: the conversion trims the code it stores, as
      the filter trims the code it judges. */
  lemma PaddedCodeFound(r: RawRecord, code: string)
    requires PlainCode(code) && r.iataCode == Some([' '] + code)
    ensures HasCode(r)
    ensures LookupAirport(Fresh, Generate([r]), code).airport == Some(ToAirport(r))
  {
    OnePaddedRow(r, code);
    var store := Generate([r]);
    FreshSessionSound(store);
    RoundTrip([r], r, Fresh, code);
  }

  /** A single row coded with a plain code behind a space is kept as one
      airport, which the plain code names up to case. */
  lemma OnePaddedRow(r: RawRecord, code: string)
    requires PlainCode(code) && r.iataCode == Some([' '] + code)
    ensures HasCode(r) && r in [r]
    ensures Airports([r]) == [ToAirport(r)] && DistinctCodes(Airports([r]))
    ensures ToUpper(code) == ToUpper(Trim(r.iataCode.value))
  {
    TrimPadded(code);
    UpperPadded(code);
    PlainCodeUnpadded(code);
    assert HasCode(r);
    OneKept(r);
  }

  /** A code that no kept row carries (trimmed, up to case) is not found. */
  lemma UnknownCodeNotFound(rs: seq<RawRecord>, s: Session, iata: string)
    requires forall r :: r in rs && HasCode(r) ==> ToUpper(Trim(r.iataCode.value)) != ToUpper(iata)
    requires CacheSound(s, Generate(rs))
    ensures LookupAirport(s, Generate(rs), iata).airport == None
  {
    if iata != [] {
      forall a | a in Airports(rs) ensures a.iataCode != ToUpper(iata) {
        AirportComesFromKeptRow(rs, a);
      }
      LookupGenerated(rs, s, iata);
    }
  }

  /** The prefixes of a three-letter code. */
  lemma PrefixesOfThree(code: string, x: string)
    requires |code| == 3
    ensures x <= code <==> x in {[], code[..1], code[..2], code}
  {
    if x <= code {
      assert x == code[..|x|];
    }
    assert code[..3] == code;
  }

  lemma ExamplePrefixes(x: string)
    ensures (x <= "JFK" || x <= "LGA") <==> x in {"", "J", "JF", "JFK", "L", "LG", "LGA"}
  {
    PrefixesOfThree("JFK", x);
    PrefixesOfThree("LGA", x);
    assert "JFK"[..1] == "J" && "JFK"[..2] == "JF";
    assert "LGA"[..1] == "L" && "LGA"[..2] == "LG";
  }

  /** A node of the tree built from two airports is the root or a prefix of
      one of their codes. */
  lemma NodesOfTwo(airports: seq<Airport>, x: string)
    requires |airports| == 2
    ensures Has(Build(airports), x) <==>
      x == [] || x <= airports[0].iataCode || x <= airports[1].iataCode
  {
    BuildNodes(airports);
    if x <= airports[0].iataCode {
      assert 0 < |airports|;
    }
    if x <= airports[1].iataCode {
      assert 1 < |airports|;
    }
  }

  /** The units generated from two airports sit exactly at the root and the
      prefixes of their codes. */
  lemma UnitsOfTwo(airports: seq<Airport>, x: string)
    requires |airports| == 2
    ensures x in GenerateFrom(airports) <==>
      x == [] || x <= airports[0].iataCode || x <= airports[1].iataCode
  {
    GeneratedStore(airports);
    assert StoreAt(GenerateFrom(airports), Build(airports), x);
    NodesOfTwo(airports, x);
  }

  /** The worked example, over any two rows coded `JFK` and `LGA`: units are
      written exactly at the seven prefixes of the two codes. */
  lemma ExampleUnits(r0: RawRecord, r1: RawRecord)
    requires r0.iataCode == Some("JFK") && r1.iataCode == Some("LGA")
    ensures Generate([r0, r1]).Keys == {"", "J", "JF", "JFK", "L", "LG", "LGA"}
  {
    TwoPlainCodes(r0, r1, "JFK", "LGA");
    UnitsOfJfkLga(Airports([r0, r1]));
  }

  lemma UnitsOfJfkLga(airports: seq<Airport>)
    requires |airports| == 2 && airports[0].iataCode == "JFK" && airports[1].iataCode == "LGA"
    ensures GenerateFrom(airports).Keys == {"", "J", "JF", "JFK", "L", "LG", "LGA"}
  {
    var store := GenerateFrom(airports);
    var names := {"", "J", "JF", "JFK", "L", "LG", "LGA"};
    forall x ensures x in store <==> x in names {
      UnitOfJfkLga(airports, x);
    }
    StoreKeys(store, names);
  }

  /** A store holds units at exactly the addresses of a set. */
  lemma StoreKeys(store: Store, names: set<Address>)
    requires forall x :: x in store <==> x in names
    ensures store.Keys == names
  {
  }

  lemma UnitOfJfkLga(airports: seq<Airport>, x: string)
    requires |airports| == 2 && airports[0].iataCode == "JFK" && airports[1].iataCode == "LGA"
    ensures x in GenerateFrom(airports) <==> x in {"", "J", "JF", "JFK", "L", "LG", "LGA"}
  {
    UnitsOfTwo(airports, x);
    ExamplePrefixes(x);
  }

  /** Of two airports with distinct codes, the one carrying a code is the
      last one with it. */
  lemma LastOfTwo(airports: seq<Airport>, code: string)
    requires |airports| == 2 && airports[0].iataCode != airports[1].iataCode
    ensures airports[0].iataCode == code ==> LastWithCode(airports, code) == Some(airports[0])
    ensures airports[1].iataCode == code ==> LastWithCode(airports, code) == Some(airports[1])
    ensures airports[0].iataCode != code && airports[1].iataCode != code ==> LastWithCode(airports, code) == None
  {
  }

  lemma UpperJfk()
    ensures ToUpper("jfk") == "JFK"
  {
  }

  lemma UpperOrd()
    ensures ToUpper("ORD") == "ORD"
  {
  }

  /** The worked example of the lookup's documentation: the code `jfk`
      loads the module `./data/J/F/K`. */
  lemma ExamplePath()
    ensures ModulePath(ToUpper("jfk")) == "./data/J/F/K"
  {
    UpperJfk();
    assert "JF"[..1] == "J" && "JFK"[..2] == "JF";
    assert JoinSlash("JF") == "J/F";
    assert JoinSlash("JFK") == "J/F/K";
  }

  /** The worked example: `jfk` finds the airport of the `JFK` row. */
  lemma ExampleFound(r0: RawRecord, r1: RawRecord)
    requires r0.iataCode == Some("JFK") && r1.iataCode == Some("LGA")
    ensures HasCode(r0)
    ensures LookupAirport(Fresh, Generate([r0, r1]), "jfk").airport == Some(ToAirport(r0))
  {
    TwoPlainCodes(r0, r1, "JFK", "LGA");
    FreshSessionSound(Generate([r0, r1]));
    UpperJfk();
    LookupGenerated([r0, r1], Fresh, "jfk");
    LastOfTwo(Airports([r0, r1]), "JFK");
  }

  /** The worked example: `ORD`, which neither row carries, finds nothing. */
  lemma ExampleNotFound(r0: RawRecord, r1: RawRecord)
    requires r0.iataCode == Some("JFK") && r1.iataCode == Some("LGA")
    ensures LookupAirport(Fresh, Generate([r0, r1]), "ORD").airport == None
  {
    TwoPlainCodes(r0, r1, "JFK", "LGA");
    FreshSessionSound(Generate([r0, r1]));
    UpperOrd();
    LookupGenerated([r0, r1], Fresh, "ORD");
    LastOfTwo(Airports([r0, r1]), "ORD");
  }
}

=== FILE: generation.dfy ===
/** The generator run end to end and what its output exposes: loading the
    unit at the address of any node yields exactly the airports whose codes
    start with that address (the comment at scripts/generate.ts line 86). */
module Generation {
  import opened Basics
  import opened Text
  import opened Records
  import opened Trie
  import opened Emitter
  import opened Loader

  /** The script body with the trimming conversion `Records.ToAirport`:
      filter and normalise the rows, then build and emit. The script as
      written is `AsWritten.GenerateAsWritten`. */
  function Generate(rs: seq<RawRecord>): Store
  {
    GenerateFrom(Airports(rs))
  }

  /** Insert the airports into the tree, then emit from the root (depth 0,
      the `src/data` directory). */
  function GenerateFrom(airports: seq<Airport>): Store
  {
    StoreOf(Emit(Build(airports), []))
  }

  /** `store` holds one unit per node of `t`, at the node's path, with the
      content computed for that node at its depth. */
  ghost predicate IsStoreOf(store: Store, t: Tree)
  {
    forall x :: StoreAt(store, t, x)
  }

  /** The unit at `x`, if any, is the one generated for the node at `x`. */
  ghost predicate StoreAt(store: Store, t: Tree, x: Address)
  {
    (x in store <==> Has(t, x))
    && (x in store ==> Has(t, x) && store[x] == Content(Find(t, x).value, |x|))
  }

  /** What loading reads from the unit of the node at `addr`: its own export,
      bound under the trimmed address, and the specifiers of its children. */
  lemma UnitOfNode(store: Store, t: Tree, addr: Address)
    requires IsStoreOf(store, t) && CodesMatchPaths(t) && Has(t, addr)
    ensures addr in store
    ensures OwnExports(store[addr]) ==
      if Held(t, addr).Some? then map[Trim(addr) := Held(t, addr).value] else map[]
    ensures ReexportSpecs(store[addr]) == ChildSpecs(SortedKeys(Find(t, addr).value.children.Keys))
  {
    assert StoreAt(store, t, addr);
    ContentProjections(Find(t, addr).value, |addr|);
  }

  /** The generator's output is the store of the tree it built. */
  lemma GeneratedStore(airports: seq<Airport>)
    ensures IsStoreOf(GenerateFrom(airports), Build(airports))
  {
    var t := Build(airports);
    EmittedUnits(t, []);
    var root: Address := [];
    forall x: Address ensures StoreAt(GenerateFrom(airports), t, x) {
      assert x[|root|..] == x && root <= x;
    }
  }

  /** Every airport of `t` sits at a path `trim` leaves alone, so its
      `export const` line binds exactly its code. */
  ghost predicate HeldUnpadded(t: Tree)
  {
    forall p :: Held(t, p).Some? ==> Unpadded(p)
  }

  /** A tree built from normalised codes holds airports only at unpadded
      paths. */
  lemma BuildHeldUnpadded(airports: seq<Airport>)
    requires CodesNormalised(airports)
    ensures HeldUnpadded(Build(airports))
  {
    BuildHeld(airports);
    forall p | Held(Build(airports), p).Some? ensures Unpadded(p) {
      var i :| 0 <= i < |airports| && airports[i] == LastWithCode(airports, p).value;
    }
  }

  /** The namespace `ns` holds exactly the airports of `t` whose codes start
      with `addr`, each under its code. */
  ghost predicate ExposesSubtree(ns: map<string, Airport>, t: Tree, addr: Address)
  {
    forall name ::
      (name in ns <==> addr <= name && Held(t, name).Some?)
      && (name in ns ==> ns[name] == Held(t, name).value)
  }

  /** A node strictly below `addr` lies under one of its children. */
  lemma UnderChild(t: Tree, addr: Address, x: Address)
    requires Has(t, addr) && Has(t, x)
    requires addr <= x && x != addr
    ensures |addr| < |x| && x[|addr|] in Find(t, addr).value.children
  {
    assert x == addr + x[|addr|..];
    FindAppend(t, addr, x[|addr|..]);
    assert x[|addr|..][0] == x[|addr|];
  }

  /** Loading the unit of any node exposes exactly the airports whose codes
      start with the node's address. */
  lemma {:induction false} NamespaceOfNode(store: Store, t: Tree, addr: Address)
    requires IsStoreOf(store, t) && CodesMatchPaths(t) && HeldUnpadded(t) && Has(t, addr)
    ensures Namespace(store, addr).Some?
    ensures ExposesSubtree(Namespace(store, addr).value, t, addr)
    decreases Find(t, addr).value, 1, 0
  {
    var ks := SortedKeys(Find(t, addr).value.children.Keys);
    UnitOfNode(store, t, addr);
    if Held(t, addr).Some? {
      TrimFixesUnpadded(addr);
    }
    StarsOfNode(store, t, addr, ks);
    NamespaceOfUnit(store, addr);
    MergeOwn(t, addr, ks, StarExports(store, addr, ChildSpecs(ks)).value, OwnExports(store[addr]));
  }

  /** The airports under a node's children, together with its own export,
      are all the airports at or below the node. */
  lemma MergeOwn(t: Tree, addr: Address, ks: seq<char>, stars: map<string, Airport>, own: map<string, Airport>)
    requires Has(t, addr)
    requires forall k :: k in Find(t, addr).value.children ==> k in ks
    requires ExposesChildren(stars, t, addr, ks)
    requires own == if Held(t, addr).Some? then map[addr := Held(t, addr).value] else map[]
    ensures ExposesSubtree(stars + own, t, addr)
  {
    forall name
      ensures name in stars + own <==> addr <= name && Held(t, name).Some?
      ensures name in stars + own ==> (stars + own)[name] == Held(t, name).value
    {
      if name != addr && addr <= name && Held(t, name).Some? {
        UnderChild(t, addr, name);
      }
    }
  }

  /** `m` holds exactly the airports held under the children of `addr` with
      keys among `ks`. */
  ghost predicate ExposesChildren(m: map<string, Airport>, t: Tree, addr: Address, ks: seq<char>)
  {
    forall name ::
      (name in m <==> |addr| < |name| && addr <= name && name[|addr|] in ks && Held(t, name).Some?)
      && (name in m ==> m[name] == Held(t, name).value)
  }

  /** The `export *` lines of a node's unit for the child keys `ks` bring in
      exactly the airports under those children. */
  lemma {:induction false} StarsOfNode(store: Store, t: Tree, addr: Address, ks: seq<char>)
    requires IsStoreOf(store, t) && CodesMatchPaths(t) && HeldUnpadded(t) && Has(t, addr)
    requires forall k :: k in ks ==> k in Find(t, addr).value.children
    ensures addr in store
    ensures StarExports(store, addr, ChildSpecs(ks)).Some?
    ensures ExposesChildren(StarExports(store, addr, ChildSpecs(ks)).value, t, addr, ks)
    decreases Find(t, addr).value, 0, |ks|
  {
    var specs := ChildSpecs(ks);
    assert StoreAt(store, t, addr);
    if ks == [] {
      assert specs == [];
    } else {
      var k := ks[0];
      var sub := addr + [k];
      ChildUnit(store, t, addr, k);
      NamespaceOfNode(store, t, sub);
      StarsOfNode(store, t, addr, ks[1..]);
      ChildSpecsCons(ks);
      StarExportsFirst(store, addr, k, ChildSpecs(ks[1..]));
      MergeChildren(t, addr, ks, Namespace(store, sub).value,
                    StarExports(store, addr, ChildSpecs(ks[1..])).value);
    }
  }

  /** The airports under the first child, merged with those under the
      remaining children, are those under all of them. */
  lemma MergeChildren(t: Tree, addr: Address, ks: seq<char>, m1: map<string, Airport>, m2: map<string, Airport>)
    requires Has(t, addr) && ks != [] && ks[0] in Find(t, addr).value.children
    requires ExposesSubtree(m1, t, addr + [ks[0]])
    requires ExposesChildren(m2, t, addr, ks[1..])
    ensures ExposesChildren(m1 + m2, t, addr, ks)
  {
    var n := Find(t, addr).value;
    var k := ks[0];
    forall name
      ensures name in m1 + m2 <==> |addr| < |name| && addr <= name && name[|addr|] in ks && Held(t, name).Some?
      ensures name in m1 + m2 ==> (m1 + m2)[name] == Held(t, name).value
    {
      ChildPaths(n, addr, k, name);
      if |addr| < |name| && addr <= name && name[|addr|] in ks {
        assert name[|addr|] == k || name[|addr|] in ks[1..];
      }
    }
  }

  /** The child of a node under key `k` is a node with a unit of its own,
      named by the specifier `./k`. */
  lemma ChildUnit(store: Store, t: Tree, addr: Address, k: char)
    requires IsStoreOf(store, t) && Has(t, addr) && k in Find(t, addr).value.children
    ensures addr in store && addr + [k] in store
    ensures Find(t, addr + [k]) == Some(Find(t, addr).value.children[k])
    ensures Resolve(addr, "./" + [k]) == Some(addr + [k])
  {
    assert StoreAt(store, t, addr);
    ResolveChildSpec(addr, k);
    FindAppend(t, addr, [k]);
    FindChild(Find(t, addr).value, k);
    assert StoreAt(store, t, addr + [k]);
  }

  /** The first `export * from './k'` line contributes the namespace of the
      child unit, merged with what the remaining lines bring in. */
  lemma StarExportsFirst(store: Store, addr: Address, k: char, rest: seq<string>)
    requires addr in store && addr + [k] in store
    requires Resolve(addr, "./" + [k]) == Some(addr + [k])
    requires Namespace(store, addr + [k]).Some? && StarExports(store, addr, rest).Some?
    ensures StarExports(store, addr, ["./" + [k]] + rest) ==
      Some(Namespace(store, addr + [k]).value + StarExports(store, addr, rest).value)
  {
    var specs := ["./" + [k]] + rest;
    assert specs[0] == "./" + [k] && specs[1..] == rest;
  }

  /** Loading an address that is not a node of `t` fails. */
  lemma NamespaceOffTree(store: Store, t: Tree, addr: Address)
    requires IsStoreOf(store, t) && !Has(t, addr)
    ensures Namespace(store, addr).None?
  {
    assert StoreAt(store, t, addr);
  }
}

=== FILE: loader.dfy ===
/** The unit store seen from the lookup side: what loading a generated
    module exposes. Loading the unit at an address yields its namespace: the
    unit's own `export const` bindings plus, transitively, everything its
    `export * from './<key>'` lines re-export. Loading fails when the unit or
    any unit it re-exports is missing, or a specifier does not resolve. */
module Loader {
  import opened Basics
  import opened Records
  import opened Emitter

  /** The generated files, by unit address. */
  type Store = map<Address, Unit>

  /** Resolves a re-export specifier relative to the unit at `from`:
      `./<key>` names the sub-directory `key`. */
  function Resolve(from: Address, spec: string): (r: Option<Address>)
    ensures r.Some? <==> |spec| == 3 && spec[..2] == "./"
    ensures r.Some? ==> r.value == from + [spec[2]]
  {
    if |spec| == 3 && spec[0] == '.' && spec[1] == '/' then Some(from + [spec[2]]) else None
  }

  /** Resolution inverts the specifiers the generator writes: a specifier
      resolves to `x` exactly when `x` is a child address of `from` and the
      specifier is `./` followed by that child's key. */
  lemma ResolveInvertsChildSpec(from: Address, spec: string, x: Address)
    ensures Resolve(from, spec) == Some(x) <==>
      |x| == |from| + 1 && from <= x && spec == "./" + [x[|from|]]
  {
    if Resolve(from, spec) == Some(x) {
      assert spec == "./" + [spec[2]];
      assert x[|from|] == spec[2];
    }
    if |x| == |from| + 1 && from <= x && spec == "./" + [x[|from|]] {
      assert x == from + [x[|from|]];
    }
  }

  /** A specifier built for a child key resolves to the child's address. */
  lemma ResolveChildSpec(from: Address, k: char)
    ensures Resolve(from, "./" + [k]) == Some(from + [k])
  {
  }

  /** The addresses of the store no shorter than `addr`: the measure that
      shrinks along a chain of re-exports. */
  ghost function Deeper(store: Store, addr: Address): set<Address>
  {
    set a | a in store.Keys && |a| >= |addr|
  }

  lemma DeeperShrinks(store: Store, addr: Address, child: Address)
    requires addr in store && |child| == |addr| + 1
    ensures Deeper(store, child) < Deeper(store, addr)
  {
    assert addr in Deeper(store, addr) && addr !in Deeper(store, child);
  }

  /** The namespace of the module at `addr`, or `None` when loading fails. */
  function Namespace(store: Store, addr: Address): (r: Option<map<string, Airport>>)
    ensures addr !in store ==> r.None?
    ensures r.Some? ==> forall n :: n in OwnExports(store[addr]) ==>
      n in r.value && r.value[n] == OwnExports(store[addr])[n]
    decreases Deeper(store, addr), 1, 0
  {
    if addr !in store then None
    else
      match StarExports(store, addr, ReexportSpecs(store[addr]))
      case None => None
      case Some(stars) => Some(stars + OwnExports(store[addr]))
  }

  /** The bindings the `export *` lines with specifiers `specs` bring into
      the module at `addr`, in line order. */
  function StarExports(store: Store, addr: Address, specs: seq<string>): Option<map<string, Airport>>
    requires addr in store
    decreases Deeper(store, addr), 0, |specs|
  {
    if specs == [] then Some(map[])
    else
      match Resolve(addr, specs[0])
      case None => None
      case Some(child) =>
        if child !in store then None
        else
          DeeperShrinks(store, addr, child);
          match (Namespace(store, child), StarExports(store, addr, specs[1..]))
          case (Some(m1), Some(m2)) => Some(m1 + m2)
          case _ => None
  }

  /** When its `export *` lines load, a unit's namespace is what they bring
      in together with its own exports. */
  lemma NamespaceOfUnit(store: Store, addr: Address)
    requires addr in store && StarExports(store, addr, ReexportSpecs(store[addr])).Some?
    ensures Namespace(store, addr) ==
      Some(StarExports(store, addr, ReexportSpecs(store[addr])).value + OwnExports(store[addr]))
  {
  }
}

=== FILE: lookup.dfy ===
/** `lookupAirport` (src/index.ts lines 4-37): upper-case the code, derive
    the module path `./data/J/F/K`, load that module once per path through a
    cache, and pick the airport out by the upper-cased code. Promises are
    modelled as their settled outcome; the module-level cache is an explicit
    session value threaded through the calls. */
module Lookup {
  import opened Basics
  import opened Text
  import opened Records
  import opened Emitter
  import opened Loader

  /** `s.split('').join('/')`: the characters of `s` with `/` between them,
      built from the last character back, as the directories are. */
  function JoinSlash(s: string): (r: string)
    ensures s == [] <==> r == []
    ensures s != [] ==> |r| == 2 * |s| - 1
  {
    if |s| <= 1 then s else JoinSlash(s[..|s| - 1]) + "/" + [s[|s| - 1]]
  }

  /** Even positions of the joined string hold the characters in order, odd
      positions hold the separator. */
  lemma {:induction false} JoinSlashAt(s: string, i: nat)
    requires i < |JoinSlash(s)|
    ensures JoinSlash(s)[i] == if i % 2 == 0 then s[i / 2] else '/'
  {
    if |s| > 1 && i < 2 * |s| - 3 {
      JoinSlashAt(s[..|s| - 1], i);
    }
  }

  /** Reads the characters back out of a `/`-joined string; `None` when the
      string is not of that shape. */
  function SplitSlash(r: string): Option<string>
  {
    if |r| <= 1 then Some(r)
    else if r[|r| - 2] != '/' then None
    else
      match SplitSlash(r[..|r| - 2])
      case Some(rest) => if rest == [] then None else Some(rest + [r[|r| - 1]])
      case None => None
  }

  /** The module path built for an upper-cased code. */
  function ModulePath(upper: string): string
  {
    "./data/" + JoinSlash(upper)
  }

  /** The unit address a module path under `./data/` names. */
  function ParseModulePath(path: string): Option<Address>
  {
    if |path| >= 7 && path[..7] == "./data/" then SplitSlash(path[7..]) else None
  }

  lemma {:induction false} SplitJoinSlash(s: string)
    ensures SplitSlash(JoinSlash(s)) == Some(s)
  {
    if |s| > 1 {
      var init := s[..|s| - 1];
      var r := JoinSlash(s);
      assert r[..|r| - 2] == JoinSlash(init);
      SplitJoinSlash(init);
      assert init + [s[|s| - 1]] == s;
    }
  }

  /** The module path of a code names the code's own address, so distinct
      codes get distinct cache entries. */
  lemma ModulePathRoundTrip(a: Address)
    ensures ParseModulePath(ModulePath(a)) == Some(a)
  {
    var p := ModulePath(a);
    assert p[..7] == "./data/" && p[7..] == JoinSlash(a);
    SplitJoinSlash(a);
  }

  lemma ModulePathInjective(a: Address, b: Address)
    requires ModulePath(a) == ModulePath(b)
    ensures a == b
  {
    ModulePathRoundTrip(a);
    ModulePathRoundTrip(b);
  }

  /** Below `data`, the generator's directory of a node is its code with
      `/` between the characters. */
  lemma {:induction false} DirPathIsJoin(a: Address)
    requires a != []
    ensures DirPath(a) == "data/" + JoinSlash(a)
    decreases |a|
  {
    if |a| >= 2 {
      var init := a[..|a| - 1];
      DirPathIsJoin(init);
      SlashAssoc(JoinSlash(init), a[|a| - 1]);
    }
  }

  lemma SlashAssoc(j: string, last: char)
    ensures ("data/" + j) + "/" + [last] == "data/" + (j + "/" + [last])
  {
  }

  /** The module path the lookup builds for a code is the directory the
      generator created for the node of that code. */
  lemma ModulePathIsUnitDirectory(a: Address)
    requires a != []
    ensures ModulePath(a) == "./" + DirPath(a)
  {
    DirPathIsJoin(a);
    assert "./data/" + JoinSlash(a) == "./" + ("data/" + JoinSlash(a));
  }

  /** The settled outcome of `import(modulePath)`. */
  datatype LoadOutcome = Failed | Loaded(exports: map<string, Airport>)

  /** `import(path)`: the namespace of the unit the path names, or a failure. */
  function LoadModule(store: Store, path: string): LoadOutcome
  {
    match ParseModulePath(path)
    case None => Failed
    case Some(addr) =>
      match Namespace(store, addr)
      case None => Failed
      case Some(ns) => Loaded(ns)
  }

  /** Importing the module path of a code loads the unit at the code's own
      address: the import succeeds exactly when that unit loads, with its
      namespace. */
  lemma LoadModuleOfAddress(store: Store, a: Address)
    ensures LoadModule(store, ModulePath(a)).Loaded? <==> Namespace(store, a).Some?
    ensures LoadModule(store, ModulePath(a)).Loaded? ==>
      LoadModule(store, ModulePath(a)).exports == Namespace(store, a).value
  {
    ModulePathRoundTrip(a);
  }

  /** `return airportModule[upperIata]`, with a failed load caught and
      turned into `undefined`. */
  function Select(outcome: LoadOutcome, name: string): (r: Option<Airport>)
    ensures r.Some? <==> outcome.Loaded? && name in outcome.exports
    ensures r.Some? ==> r.value == outcome.exports[name]
  {
    match outcome
    case Failed => None
    case Loaded(ns) => if name in ns then Some(ns[name]) else None
  }

  /** `moduleCache` and the log of `import` calls made so far. */
  datatype Session = Session(cache: map<string, LoadOutcome>, loads: seq<string>)

  /** What one call returns, and the session after it. */
  datatype Answer = Answer(airport: Option<Airport>, session: Session)

  /** The session at process start. */
  const Fresh: Session := Session(map[], [])

  /** Every cached outcome is what loading its path from `store` gives. */
  ghost predicate CacheSound(s: Session, store: Store)
  {
    forall p :: p in s.cache ==> s.cache[p] == LoadModule(store, p)
  }

  /** Every load is recorded in the cache and no path was loaded twice. */
  ghost predicate LoadsOnce(s: Session)
  {
    (forall i :: 0 <= i < |s.loads| ==> s.loads[i] in s.cache)
    && (forall i, j :: 0 <= i < j < |s.loads| ==> s.loads[i] != s.loads[j])
  }

  lemma FreshSessionSound(store: Store)
    ensures CacheSound(Fresh, store) && LoadsOnce(Fresh)
  {
  }

  /** The lookup without a cache: what a call answers when every module is
      loaded anew. */
  function LookupUncached(store: Store, iata: string): Option<Airport>
  {
    if iata == [] then None
    else Select(LoadModule(store, ModulePath(ToUpper(iata))), ToUpper(iata))
  }

  /** `lookupAirport(iata)`. */
  function LookupAirport(s: Session, store: Store, iata: string): (r: Answer)
    ensures iata == [] ==> r == Answer(None, s)
    ensures iata != [] ==> r.session.cache.Keys == s.cache.Keys + {ModulePath(ToUpper(iata))}
    ensures forall p :: p in s.cache ==> r.session.cache[p] == s.cache[p]
    ensures s.loads <= r.session.loads && |r.session.loads| <= |s.loads| + 1
    ensures forall i :: |s.loads| <= i < |r.session.loads| ==>
      r.session.loads[i] !in s.cache && r.session.loads[i] in r.session.cache
    ensures CacheSound(s, store) ==>
      CacheSound(r.session, store) && r.airport == LookupUncached(store, iata)
  {
    if iata == [] then Answer(None, s)
    else
      var upper := ToUpper(iata);
      var path := ModulePath(upper);
      var s' :=
        if path in s.cache then s
        else Session(s.cache[path := LoadModule(store, path)], s.loads + [path]);
      Answer(Select(s'.cache[path], upper), s')
  }

  /** The first lookup of a process answers as the uncached lookup does. */
  lemma FreshLookup(store: Store, iata: string)
    ensures LookupAirport(Fresh, store, iata).airport == LookupUncached(store, iata)
  {
    FreshSessionSound(store);
  }

  /** Each path is loaded at most once over any run of lookups. */
  lemma LookupLoadsOnce(s: Session, store: Store, iata: string)
    requires LoadsOnce(s)
    ensures LoadsOnce(LookupAirport(s, store, iata).session)
  {
    var s' := LookupAirport(s, store, iata).session;
    if |s'.loads| > |s.loads| {
      forall i, j | 0 <= i < j < |s'.loads| ensures s'.loads[i] != s'.loads[j] {
        if j == |s.loads| {
          assert s'.loads[i] == s.loads[i];
        }
      }
    }
  }

  /** Lookup is case-insensitive: a code and its upper-cased form use the
      same path and selector, so they answer alike and leave the same
      session. */
  lemma LookupCaseInsensitive(s: Session, store: Store, iata: string)
    ensures LookupAirport(s, store, iata) == LookupAirport(s, store, ToUpper(iata))
  {
    ToUpperIdempotent(iata);
  }

  /** Asking again answers the same and loads nothing. */
  lemma LookupIdempotent(s: Session, store: Store, iata: string)
    ensures var first := LookupAirport(s, store, iata);
      LookupAirport(first.session, store, iata) == first
  {
  }

  /** A failed load stays cached: later lookups of the same path answer
      `undefined` without loading again. */
  lemma FailedLoadStaysCached(s: Session, store: Store, iata: string)
    requires iata != []
    requires ModulePath(ToUpper(iata)) in s.cache && s.cache[ModulePath(ToUpper(iata))] == Failed
    ensures LookupAirport(s, store, iata) == Answer(None, s)
  {
  }

  /** The uncached answers to a list of queries, in order. */
  function UncachedAnswers(store: Store, queries: seq<string>): (answers: seq<Option<Airport>>)
    ensures |answers| == |queries|
    ensures forall j :: 0 <= j < |queries| ==> answers[j] == LookupUncached(store, queries[j])
  {
    seq(|queries|, j requires 0 <= j < |queries| => LookupUncached(store, queries[j]))
  }

  /** What a run of lookups keeps relative to the session `s0` it started
      from: the cache stays sound, no path is loaded twice, the log only
      grows, and every path loaded during the run was not cached at its
      start. */
  ghost predicate RunFrom(s0: Session, s: Session, store: Store)
  {
    && CacheSound(s, store) && LoadsOnce(s)
    && s0.loads <= s.loads
    && s0.cache.Keys <= s.cache.Keys
    && forall k :: |s0.loads| <= k < |s.loads| ==> s.loads[k] !in s0.cache
  }

  /** One more lookup keeps the run's invariant, loads at most one path, and
      answers as the uncached lookup does. */
  lemma LookupExtendsRun(s0: Session, s: Session, store: Store, iata: string)
    requires RunFrom(s0, s, store)
    ensures RunFrom(s0, LookupAirport(s, store, iata).session, store)
    ensures |LookupAirport(s, store, iata).session.loads| <= |s.loads| + 1
    ensures LookupAirport(s, store, iata).airport == LookupUncached(store, iata)
  {
    LookupLoadsOnce(s, store, iata);
  }

  /** A run of lookups in one process: every answer is the uncached answer,
      and no path is loaded twice. */
  method LookupAll(s0: Session, store: Store, queries: seq<string>)
    returns (answers: seq<Option<Airport>>, s: Session)
    requires CacheSound(s0, store) && LoadsOnce(s0)
    ensures |answers| == |queries|
    ensures forall j :: 0 <= j < |queries| ==> answers[j] == LookupUncached(store, queries[j])
    ensures CacheSound(s, store) && LoadsOnce(s)
    ensures s0.loads <= s.loads
    ensures forall i :: |s0.loads| <= i < |s.loads| ==> s.loads[i] !in s0.cache
    ensures |s.loads| - |s0.loads| <= |queries|
  {
    answers := [];
    s := s0;
    var i := 0;
    while i < |queries|
      invariant 0 <= i <= |queries|
      invariant |answers| == i
      invariant answers == UncachedAnswers(store, queries[..i])
      invariant RunFrom(s0, s, store)
      invariant |s.loads| - |s0.loads| <= i
    {
      var r := LookupAirport(s, store, queries[i]);
      LookupExtendsRun(s0, s, store, queries[i]);
      assert queries[..i + 1] == queries[..i] + [queries[i]];
      answers := answers + [r.airport];
      s := r.session;
      i := i + 1;
    }
    assert queries[..i] == queries;
  }
}

=== FILE: records.dfy ===
/** The record filter and normalisation at the top of the generator
    (scripts/generate.ts lines 17-29). CSV reading and parsing are outside the
    model: the input is the parsed row sequence. */
module Records {
  import opened Basics
  import opened Text

  /** One parsed CSV row, reduced to the columns the generator copies.
      `iataCode` is `None` when the column is missing (`undefined`). */
  datatype RawRecord = RawRecord(
    latitudeDeg: string,
    longitudeDeg: string,
    isoCountry: string,
    isoRegion: string,
    municipality: string,
    iataCode: Option<string>)

  /** The `Airport` object the generator builds from a kept row. */
  datatype Airport = Airport(
    latitudeDeg: string,
    longitudeDeg: string,
    isoCountry: string,
    isoRegion: string,
    municipality: string,
    iataCode: string)

  /** The filter condition `record.iata_code && record.iata_code.trim() !== ""`:
      the code is present, not the (falsy) empty string, and not blank. */
  predicate HasCode(r: RawRecord)
  {
    r.iataCode.Some? && r.iataCode.value != [] && Trim(r.iataCode.value) != []
  }

  /** A row is kept exactly when its code has a character that `trim` keeps. */
  lemma HasCodeIffNotBlank(r: RawRecord)
    requires r.iataCode.Some?
    ensures HasCode(r) <==> exists i :: 0 <= i < |r.iataCode.value| && !IsTrimmable(r.iataCode.value[i])
  {
    TrimEmptyIffBlank(r.iataCode.value);
  }

  /** `records.filter(...)`: the rows with a code, in their original order. */
  function FilterValid(rs: seq<RawRecord>): (kept: seq<RawRecord>)
    ensures |kept| <= |rs|
    ensures forall r :: r in kept <==> r in rs && HasCode(r)
  {
    if rs == [] then []
    else (if HasCode(rs[0]) then [rs[0]] else []) + FilterValid(rs[1..])
  }

  /** Filtering commutes with concatenation, so the relative order of the
      kept rows is the input order. */
  lemma {:induction false} FilterValidAppend(a: seq<RawRecord>, b: seq<RawRecord>)
    ensures FilterValid(a + b) == FilterValid(a) + FilterValid(b)
  {
    if a == [] {
      assert a + b == b;
    } else {
      assert (a + b)[0] == a[0];
      assert (a + b)[1..] == a[1..] + b;
      FilterValidAppend(a[1..], b);
    }
  }

  /** The row-to-object conversion, with the code trimmed before it is
      upper-cased; every other column is copied. Line 27 of the generator
      upper-cases the code without trimming it, although the filter on line
      17 judges the code trimmed; `AsWritten.RowAsWritten` is that version,
      and `AsWritten.PaddedCodeNotFound` shows a kept row it loses. */
  function ToAirport(r: RawRecord): (a: Airport)
    requires HasCode(r)
    ensures a.iataCode != [] && IsUpperCase(a.iataCode) && Unpadded(a.iataCode)
    ensures |a.iataCode| == |Trim(r.iataCode.value)|
    ensures forall i :: 0 <= i < |a.iataCode| ==> a.iataCode[i] == UpperChar(Trim(r.iataCode.value)[i])
    ensures a.latitudeDeg == r.latitudeDeg && a.longitudeDeg == r.longitudeDeg
    ensures a.isoCountry == r.isoCountry && a.isoRegion == r.isoRegion
    ensures a.municipality == r.municipality
  {
    ToUpperKeepsUnpadded(Trim(r.iataCode.value));
    Airport(r.latitudeDeg, r.longitudeDeg, r.isoCountry, r.isoRegion, r.municipality,
            ToUpper(Trim(r.iataCode.value)))
  }

  /** Every code the generator goes on to use is non-empty, upper-case and
      unpadded. */
  predicate CodesNormalised(airports: seq<Airport>)
  {
    forall i :: 0 <= i < |airports| ==>
      airports[i].iataCode != [] && IsUpperCase(airports[i].iataCode) && Unpadded(airports[i].iataCode)
  }

  /** `validAirports.map(...)`: the airports of the kept rows, in order. */
  function Airports(rs: seq<RawRecord>): (airports: seq<Airport>)
    ensures CodesNormalised(airports)
    ensures |airports| == |FilterValid(rs)|
  {
    var kept := FilterValid(rs);
    seq(|kept|, i requires 0 <= i < |kept| => ToAirport(kept[i]))
  }

  /** The airport at position `i` is the airport of the `i`-th kept row. */
  lemma AirportOfKept(rs: seq<RawRecord>, i: nat)
    requires i < |FilterValid(rs)|
    ensures HasCode(FilterValid(rs)[i])
    ensures Airports(rs)[i] == ToAirport(FilterValid(rs)[i])
  {
    assert FilterValid(rs)[i] in FilterValid(rs);
  }

  /** Every kept row yields its airport. */
  lemma KeptRowBecomesAirport(rs: seq<RawRecord>, r: RawRecord)
    requires r in rs && HasCode(r)
    ensures ToAirport(r) in Airports(rs)
  {
    var i :| 0 <= i < |FilterValid(rs)| && FilterValid(rs)[i] == r;
    AirportOfKept(rs, i);
  }

  /** Every airport comes from a kept row. */
  lemma AirportComesFromKeptRow(rs: seq<RawRecord>, a: Airport)
    requires a in Airports(rs)
    ensures exists r :: r in rs && HasCode(r) && a == ToAirport(r)
  {
    var i :| 0 <= i < |Airports(rs)| && Airports(rs)[i] == a;
    AirportOfKept(rs, i);
  }

  /** A row whose code starts with a capital letter is kept. */
  lemma LetterCodeKept(r: RawRecord)
    requires r.iataCode.Some? && r.iataCode.value != []
    requires 'A' <= r.iataCode.value[0] <= 'Z'
    ensures HasCode(r)
  {
    TrimEmptyIffBlank(r.iataCode.value);
    assert !IsTrimmable(r.iataCode.value[0]);
  }

  /** A code of capital letters only. */
  predicate PlainCode(code: string)
  {
    code != [] && forall i :: 0 <= i < |code| ==> 'A' <= code[i] <= 'Z'
  }

  /** A row with a plain code is kept, and its airport carries that code
      unchanged. */
  lemma PlainCodeKept(r: RawRecord, code: string)
    requires r.iataCode == Some(code) && PlainCode(code)
    ensures HasCode(r) && ToAirport(r).iataCode == code
  {
    PlainCodeUnpadded(code);
    LetterCodeKept(r);
    assert ToAirport(r).iataCode == ToUpper(Trim(code));
  }

  /** A plain code is unpadded and upper-case, so trimming and upper-casing
      leave it alone. */
  lemma PlainCodeUnpadded(code: string)
    requires PlainCode(code)
    ensures Unpadded(code) && IsUpperCase(code) && 'A' <= code[0] <= 'Z'
    ensures ToUpper(Trim(code)) == code
  {
    assert !IsTrimmable(code[0]) && !IsTrimmable(code[|code| - 1]);
    TrimFixesUnpadded(code);
    ToUpperFixesUpperCase(code);
  }

  /** A plain code behind one leading space trims to the plain code. */
  lemma TrimPadded(code: string)
    requires PlainCode(code)
    ensures Trim([' '] + code) == code
  {
    PlainCodeUnpadded(code);
    TrimSkipsLeading(' ', code);
    TrimFixesUnpadded(code);
  }

  /** Upper-casing leaves a plain code alone, with or without a leading
      space. */
  lemma UpperPadded(code: string)
    requires PlainCode(code)
    ensures ToUpper([' '] + code) == [' '] + code && ToUpper(code) == code
  {
    PlainCodeUnpadded(code);
    ToUpperFixesUpperCase(code);
    assert IsUpperCase([' '] + code);
    ToUpperFixesUpperCase([' '] + code);
  }

  /** A plain code is neither its padded spelling nor a prefix of it. */
  lemma PaddedDiffers(code: string)
    requires PlainCode(code)
    ensures [' '] + code != code && !(code <= [' '] + code)
  {
    assert ([' '] + code)[0] == ' ' != code[0];
  }

  /** One kept row becomes one airport. */
  lemma OneKept(r: RawRecord)
    requires HasCode(r)
    ensures Airports([r]) == [ToAirport(r)]
  {
    assert [r][1..] == [];
    assert FilterValid([r]) == [r] + FilterValid([]) == [r];
    AirportOfKept([r], 0);
    assert |Airports([r])| == 1;
  }

  /** Two kept rows become two airports, in order. */
  lemma TwoKept(r0: RawRecord, r1: RawRecord)
    requires HasCode(r0) && HasCode(r1)
    ensures |Airports([r0, r1])| == 2
    ensures Airports([r0, r1])[0] == ToAirport(r0)
    ensures Airports([r0, r1])[1] == ToAirport(r1)
  {
    assert [r0, r1][1..] == [r1] && [r1][1..] == [];
    assert FilterValid([r1]) == [r1] + FilterValid([]);
    assert FilterValid([r0, r1]) == [r0, r1];
    AirportOfKept([r0, r1], 0);
    AirportOfKept([r0, r1], 1);
  }

  /** Two rows with plain codes become two airports with those codes. */
  lemma TwoPlainCodes(r0: RawRecord, r1: RawRecord, c0: string, c1: string)
    requires r0.iataCode == Some(c0) && PlainCode(c0)
    requires r1.iataCode == Some(c1) && PlainCode(c1)
    ensures |Airports([r0, r1])| == 2
    ensures HasCode(r0) && Airports([r0, r1])[0] == ToAirport(r0)
    ensures HasCode(r1) && Airports([r0, r1])[1] == ToAirport(r1)
    ensures Airports([r0, r1])[0].iataCode == c0
    ensures Airports([r0, r1])[1].iataCode == c1
  {
    PlainCodeKept(r0, c0);
    PlainCodeKept(r1, c1);
    TwoKept(r0, r1);
  }
}

=== FILE: text.dfy ===
/** The two string operations the generator and the lookup rely on:
    `String.prototype.toUpperCase` (restricted to ASCII letters) and
    `String.prototype.trim`. */
module Text {

  /** Upper-cases one character; only ASCII `a`..`z` change. */
  function UpperChar(c: char): (u: char)
    ensures !('a' <= u <= 'z')
    ensures 'a' <= c <= 'z' ==> 'A' <= u <= 'Z' && u as int - 'A' as int == c as int - 'a' as int
    ensures !('a' <= c <= 'z') ==> u == c
  {
    if 'a' <= c <= 'z' then (c as int - 'a' as int + 'A' as int) as char else c
  }

  /** A string with no lower-case ASCII letter. */
  predicate IsUpperCase(s: string)
  {
    forall i :: 0 <= i < |s| ==> !('a' <= s[i] <= 'z')
  }

  /** `s.toUpperCase()`, character by character. */
  function ToUpper(s: string): (r: string)
    ensures |r| == |s|
    ensures IsUpperCase(r)
    ensures forall i :: 0 <= i < |s| ==> r[i] == UpperChar(s[i])
  {
    seq(|s|, i requires 0 <= i < |s| => UpperChar(s[i]))
  }

  /** Upper-casing twice is upper-casing once. */
  lemma ToUpperIdempotent(s: string)
    ensures ToUpper(ToUpper(s)) == ToUpper(s)
  {
    var u := ToUpper(s);
    assert forall i :: 0 <= i < |u| ==> UpperChar(u[i]) == u[i];
  }

  /** An upper-case string is left alone by `ToUpper`. */
  lemma ToUpperFixesUpperCase(s: string)
    requires IsUpperCase(s)
    ensures ToUpper(s) == s
  {
    assert forall i :: 0 <= i < |s| ==> UpperChar(s[i]) == s[i];
  }

  /** The code points JavaScript's `trim` removes: the WhiteSpace and
      LineTerminator productions of ECMAScript (tab, vertical tab, form feed,
      space, no-break space, byte order mark, the Zs category, line feed,
      carriage return, line and paragraph separators). */
  predicate IsTrimmable(c: char)
  {
    var n := c as int;
    n == 0x09 || n == 0x0A || n == 0x0B || n == 0x0C || n == 0x0D || n == 0x20
    || n == 0xA0 || n == 0x1680 || (0x2000 <= n <= 0x200A)
    || n == 0x2028 || n == 0x2029 || n == 0x202F || n == 0x205F
    || n == 0x3000 || n == 0xFEFF
  }

  /** `s.trimStart()`. */
  function TrimStart(s: string): (r: string)
    ensures |r| <= |s| && r == s[|s| - |r|..]
    ensures r == [] || !IsTrimmable(r[0])
    ensures forall i :: 0 <= i < |s| - |r| ==> IsTrimmable(s[i])
  {
    if s == [] || !IsTrimmable(s[0]) then s else TrimStart(s[1..])
  }

  /** `s.trimEnd()`. */
  function TrimEnd(s: string): (r: string)
    ensures |r| <= |s| && r == s[..|r|]
    ensures r == [] || !IsTrimmable(r[|r| - 1])
    ensures forall i :: |r| <= i < |s| ==> IsTrimmable(s[i])
  {
    if s == [] || !IsTrimmable(s[|s| - 1]) then s else TrimEnd(s[..|s| - 1])
  }

  /** `s.trim()`: a contiguous slice of `s` with the trimmable characters
      removed from both ends and only from the ends. */
  function Trim(s: string): (r: string)
    ensures |r| <= |s|
    ensures r == [] || (!IsTrimmable(r[0]) && !IsTrimmable(r[|r| - 1]))
  {
    TrimEnd(TrimStart(s))
  }

  /** `s.trim()` is the middle slice of `s`: it starts after the leading
      run of trimmable characters and stops before the trailing one, and
      only trimmable characters are dropped. */
  lemma TrimIsMiddleSlice(s: string)
    ensures var i := |s| - |TrimStart(s)|;
      i + |Trim(s)| <= |s| && Trim(s) == s[i..i + |Trim(s)|]
      && (forall k :: 0 <= k < i ==> IsTrimmable(s[k]))
      && (forall k :: i + |Trim(s)| <= k < |s| ==> IsTrimmable(s[k]))
  {
    var t := TrimStart(s);
    var i := |s| - |t|;
    var m := |Trim(s)|;
    assert t == s[i..];
    assert Trim(s) == t[..m];
    forall k | i + m <= k < |s| ensures IsTrimmable(s[k]) {
      assert t[k - i] == s[k];
    }
  }

  /** `s` neither starts nor ends with a character `trim` removes. */
  predicate Unpadded(s: string)
  {
    s == [] || (!IsTrimmable(s[0]) && !IsTrimmable(s[|s| - 1]))
  }

  /** `trim` leaves an unpadded string alone, and only an unpadded one. */
  lemma TrimFixesUnpadded(s: string)
    ensures Trim(s) == s <==> Unpadded(s)
  {
    if Unpadded(s) && s != [] {
      assert TrimStart(s) == s;
    }
  }

  /** Upper-casing neither adds nor removes a character `trim` removes, so
      it keeps a string unpadded. */
  lemma ToUpperKeepsUnpadded(s: string)
    requires Unpadded(s)
    ensures Unpadded(ToUpper(s))
  {
  }

  /** A leading trimmable character makes no difference to `trim`. */
  lemma TrimSkipsLeading(c: char, s: string)
    requires IsTrimmable(c)
    ensures Trim([c] + s) == Trim(s)
  {
    assert ([c] + s)[1..] == s;
  }

  /** A blank string trims to nothing from the start. */
  lemma TrimStartOfBlank(s: string)
    requires forall i :: 0 <= i < |s| ==> IsTrimmable(s[i])
    ensures TrimStart(s) == []
  {
    if s != [] && IsTrimmable(s[0]) {
      TrimStartOfBlank(s[1..]);
    }
  }

  /** `s.trim()` is empty exactly when every character of `s` is trimmable. */
  lemma {:induction false} TrimEmptyIffBlank(s: string)
    ensures Trim(s) == [] <==> forall i :: 0 <= i < |s| ==> IsTrimmable(s[i])
  {
    var t := TrimStart(s);
    if Trim(s) == [] {
      assert TrimEnd(t) == [];
      assert t == [];
    }
    if forall i :: 0 <= i < |s| ==> IsTrimmable(s[i]) {
      TrimStartOfBlank(s);
    }
  }
}

=== FILE: trie.dfy ===
/** The prefix tree of the generator (scripts/generate.ts lines 33-50): one
    node per prefix of a kept code, each node optionally holding the airport
    whose code is exactly the path from the root. */
module Trie {
  import opened Basics
  import opened Records

  /** `interface AirportTree`: an optional airport and the children keyed by
      the next character. */
  datatype Tree = Node(airport: Option<Airport>, children: map<char, Tree>)

  /** `{ children: {} }`, the node created for a missing child and the root. */
  const Empty: Tree := Node(None, map[])

  /** The node reached from `t` by following the characters of `path`. */
  function Find(t: Tree, path: string): Option<Tree>
    decreases |path|
  {
    if path == [] then Some(t)
    else if path[0] in t.children then Find(t.children[path[0]], path[1..])
    else None
  }

  /** There is a node at `path`. */
  predicate Has(t: Tree, path: string)
  {
    Find(t, path).Some?
  }

  /** The airport held by the node at `path`, if the node exists and holds one. */
  function Held(t: Tree, path: string): Option<Airport>
  {
    if Has(t, path) then Find(t, path).value.airport else None
  }

  /** Following `p` and then `q` is following `p + q`. */
  lemma {:induction false} FindAppend(t: Tree, p: string, q: string)
    ensures Find(t, p + q) == if Has(t, p) then Find(Find(t, p).value, q) else None
    decreases |p|
  {
    if p == [] {
      assert p + q == q;
    } else {
      assert (p + q)[0] == p[0];
      assert (p + q)[1..] == p[1..] + q;
      if p[0] in t.children {
        FindAppend(t.children[p[0]], p[1..], q);
      }
    }
  }

  /** A one-character path leads to the child under that character. */
  lemma FindChild(t: Tree, k: char)
    ensures Find(t, [k]) == if k in t.children then Some(t.children[k]) else None
  {
    assert [k][0] == k && [k][1..] == [];
    if k in t.children {
      assert Find(t.children[k], []) == Some(t.children[k]);
    }
  }

  /** The only node of the empty tree is its root. */
  lemma FindInEmpty(path: string)
    ensures Has(Empty, path) <==> path == []
    ensures Held(Empty, path) == None
  {
  }

  /** One pass of the insertion loop: walk the characters of `code`, creating
      `{ children: {} }` for every missing child, then store `a` at the node
      reached. */
  function Insert(t: Tree, code: string, a: Airport): Tree
    decreases |code|
  {
    if code == [] then Node(Some(a), t.children)
    else
      var k := code[0];
      var child := if k in t.children then t.children[k] else Empty;
      Node(t.airport, t.children[k := Insert(child, code[1..], a)])
  }

  /** Insertion reaches a node holding `a` by following `code`, creates nodes
      only along `code`, replaces no existing subtree off that path, and
      changes no airport held at any other node. */
  lemma {:induction false} InsertSpec(t: Tree, code: string, a: Airport)
    ensures forall p :: !(p <= code) ==> Find(Insert(t, code, a), p) == Find(t, p)
    ensures forall p :: p <= code ==> Has(Insert(t, code, a), p)
    ensures forall p :: p != code ==> Held(Insert(t, code, a), p) == Held(t, p)
    ensures Held(Insert(t, code, a), code) == Some(a)
    decreases |code|
  {
    var r := Insert(t, code, a);
    if code == [] {
      forall p | p != [] ensures Find(r, p) == Find(t, p) {
      }
    } else {
      var k := code[0];
      var child := if k in t.children then t.children[k] else Empty;
      InsertSpec(child, code[1..], a);
      forall p | p != [] && p[0] == k
        ensures Find(r, p) == Find(Insert(child, code[1..], a), p[1..])
        ensures p <= code <==> p[1..] <= code[1..]
        ensures p[1..] != [] ==> Find(child, p[1..]) == Find(t, p)
        ensures Held(child, p[1..]) == Held(t, p)
      {
        InsertStep(t, code, a, p);
      }
      assert Find(r, code) == Find(Insert(child, code[1..], a), code[1..]);
    }
  }

  /** One level of insertion: below the first key of `code`, paths lead
      into the child the rest of the code is inserted into. */
  lemma InsertStep(t: Tree, code: string, a: Airport, p: string)
    requires code != [] && p != [] && p[0] == code[0]
    ensures var child := if code[0] in t.children then t.children[code[0]] else Empty;
      && Find(Insert(t, code, a), p) == Find(Insert(child, code[1..], a), p[1..])
      && (p <= code <==> p[1..] <= code[1..])
      && (p[1..] != [] ==> Find(child, p[1..]) == Find(t, p))
      && Held(child, p[1..]) == Held(t, p)
  {
    var k := code[0];
    var child := if k in t.children then t.children[k] else Empty;
    assert Insert(t, code, a).children[k] == Insert(child, code[1..], a);
    assert code == [k] + code[1..];
    assert p == [k] + p[1..];
    if k !in t.children {
      FindInEmpty(p[1..]);
    } else {
      FindChild(t, k);
      FindAppend(t, [k], p[1..]);
    }
  }

  /** The invariant of the tree: every held airport's code is the path from
      the root to its node. */
  ghost predicate CodesMatchPaths(t: Tree)
  {
    forall p :: Held(t, p).Some? ==> Held(t, p).value.iataCode == p
  }

  /** Inserting an airport at its own code keeps the invariant. */
  lemma InsertKeepsCodesMatchPaths(t: Tree, a: Airport)
    requires CodesMatchPaths(t)
    ensures CodesMatchPaths(Insert(t, a.iataCode, a))
  {
    InsertSpec(t, a.iataCode, a);
  }

  /** `for (const airport of airports) { ... }` starting from the empty root:
      the airports are inserted in sequence order. */
  function Build(airports: seq<Airport>): Tree
  {
    if airports == [] then Empty
    else
      var last := airports[|airports| - 1];
      Insert(Build(airports[..|airports| - 1]), last.iataCode, last)
  }

  /** The last airport of the sequence whose code is `code`. */
  function LastWithCode(airports: seq<Airport>, code: string): (r: Option<Airport>)
    ensures r.Some? ==> r.value in airports && r.value.iataCode == code
    ensures r.Some? ==> exists i :: 0 <= i < |airports| && airports[i] == r.value &&
                                   forall j :: i < j < |airports| ==> airports[j].iataCode != code
    ensures r.None? <==> forall i :: 0 <= i < |airports| ==> airports[i].iataCode != code
  {
    if airports == [] then None
    else if airports[|airports| - 1].iataCode == code then Some(airports[|airports| - 1])
    else LastWithCode(airports[..|airports| - 1], code)
  }

  /** Last write wins: the node at path `p` of the built tree holds the last
      airport whose code is `p`, and nothing when there is none. */
  lemma {:induction false} BuildHeld(airports: seq<Airport>)
    ensures forall p :: Held(Build(airports), p) == LastWithCode(airports, p)
  {
    if airports == [] {
      forall p ensures Held(Empty, p) == None {
        FindInEmpty(p);
      }
    } else {
      var init := airports[..|airports| - 1];
      var last := airports[|airports| - 1];
      BuildHeld(init);
      InsertSpec(Build(init), last.iataCode, last);
    }
  }

  /** The nodes of the built tree are exactly the prefixes of the codes
      (and the root). */
  lemma {:induction false} BuildNodes(airports: seq<Airport>)
    ensures forall p :: Has(Build(airports), p) <==>
      p == [] || exists i :: 0 <= i < |airports| && p <= airports[i].iataCode
  {
    if airports == [] {
      forall p ensures Has(Empty, p) <==> p == [] {
        FindInEmpty(p);
      }
    } else {
      var n := |airports| - 1;
      var init := airports[..n];
      var last := airports[n];
      BuildNodes(init);
      InsertSpec(Build(init), last.iataCode, last);
      assert Build(airports) == Insert(Build(init), last.iataCode, last);
      forall p ensures Has(Build(airports), p) <==>
        p == [] || exists i :: 0 <= i < |airports| && p <= airports[i].iataCode
      {
        assert Has(Build(airports), p) <==> Has(Build(init), p) || p <= last.iataCode;
        if exists i :: 0 <= i < |airports| && p <= airports[i].iataCode {
          var i :| 0 <= i < |airports| && p <= airports[i].iataCode;
          if i < n {
            assert init[i] == airports[i];
          }
        }
        if exists i :: 0 <= i < |init| && p <= init[i].iataCode {
          var i :| 0 <= i < |init| && p <= init[i].iataCode;
          assert airports[i] == init[i];
        }
      }
    }
  }

  /** The built tree keeps the invariant that codes match paths. */
  lemma BuildCodesMatchPaths(airports: seq<Airport>)
    ensures CodesMatchPaths(Build(airports))
  {
    BuildHeld(airports);
  }

  /** With non-empty codes, the root holds no airport. */
  lemma BuildRootHoldsNothing(airports: seq<Airport>)
    requires forall i :: 0 <= i < |airports| ==> airports[i].iataCode != []
    ensures Held(Build(airports), []) == None
  {
    BuildHeld(airports);
  }

  /** No two airports share a code. */
  predicate DistinctCodes(airports: seq<Airport>)
  {
    forall i, j :: 0 <= i < j < |airports| ==> airports[i].iataCode != airports[j].iataCode
  }

  /** With distinct codes, the last airport with a code is the only one. */
  lemma LastWithCodeOfDistinct(airports: seq<Airport>, a: Airport)
    requires DistinctCodes(airports)
    requires a in airports
    ensures LastWithCode(airports, a.iataCode) == Some(a)
  {
    var b := LastWithCode(airports, a.iataCode).value;
    var i :| 0 <= i < |airports| && airports[i] == a;
    var j :| 0 <= j < |airports| && airports[j] == b;
    assert i == j;
  }

  /** Following the code of any inserted airport reaches a node holding
      that very airport, when codes are distinct. */
  lemma BuildReachesEveryAirport(airports: seq<Airport>, a: Airport)
    requires DistinctCodes(airports)
    requires a in airports
    ensures Held(Build(airports), a.iataCode) == Some(a)
  {
    BuildHeld(airports);
    LastWithCodeOfDistinct(airports, a);
  }

  /** Two trees with the same nodes and the same held airports are equal. */
  lemma {:induction false} TreeExtensionality(t1: Tree, t2: Tree)
    requires forall p :: Has(t1, p) == Has(t2, p) && Held(t1, p) == Held(t2, p)
    ensures t1 == t2
    decreases t1
  {
    assert t1.airport == Held(t1, []) && t2.airport == Held(t2, []);
    forall k ensures k in t1.children <==> k in t2.children {
      FindChild(t1, k);
      FindChild(t2, k);
      assert Has(t1, [k]) == Has(t2, [k]);
    }
    forall k | k in t1.children ensures t1.children[k] == t2.children[k] {
      forall q ensures Has(t1.children[k], q) == Has(t2.children[k], q)
        && Held(t1.children[k], q) == Held(t2.children[k], q)
      {
        assert ([k] + q)[0] == k && ([k] + q)[1..] == q;
        assert Has(t1, [k] + q) == Has(t2, [k] + q);
        assert Held(t1, [k] + q) == Held(t2, [k] + q);
      }
      TreeExtensionality(t1.children[k], t2.children[k]);
    }
  }

  /** The tree does not depend on the order of the records when codes are
      distinct: any reordering of the same airports builds the same tree. */
  lemma BuildOrderIndependent(as1: seq<Airport>, as2: seq<Airport>)
    requires DistinctCodes(as1) && DistinctCodes(as2)
    requires forall a :: a in as1 <==> a in as2
    ensures Build(as1) == Build(as2)
  {
    BuildHeld(as1);
    BuildHeld(as2);
    BuildNodes(as1);
    BuildNodes(as2);
    forall p ensures Held(Build(as1), p) == Held(Build(as2), p) {
      var h1 := LastWithCode(as1, p);
      var h2 := LastWithCode(as2, p);
      if h1.Some? {
        LastWithCodeOfDistinct(as2, h1.value);
      } else if h2.Some? {
        LastWithCodeOfDistinct(as1, h2.value);
      }
    }
    forall p ensures Has(Build(as1), p) == Has(Build(as2), p) {
      if exists i :: 0 <= i < |as1| && p <= as1[i].iataCode {
        var i :| 0 <= i < |as1| && p <= as1[i].iataCode;
        assert as1[i] in as2;
      }
      if exists i :: 0 <= i < |as2| && p <= as2[i].iataCode {
        var i :| 0 <= i < |as2| && p <= as2[i].iataCode;
        assert as2[i] in as1;
      }
    }
    TreeExtensionality(Build(as1), Build(as2));
  }
}
